=== FILE: README.md ===
# ShopWave storefront cart — a Dafny model

This project models the client side of the ShopWave storefront, a React shop whose cart is mirrored to an Internet Computer backend canister and whose payments go through a Stripe checkout session. It covers:

- **The cart store** (`CartContext.tsx`), as the class `CartContext.CartStore`. It holds an ordered list of cart lines. Its operations are add, remove, set-quantity, clear, open and close, and add, remove and set-quantity keep at most one line per product id. `itemCount` and `subtotal` are derived from the lines. While signed in with the backend connected, add, remove and set-quantity push the whole cart to the backend, and clear sends a delete instead. A one-shot download of the saved cart runs behind a `cartLoaded` flag; replacing the lines with the downloaded cart pushes nothing. The flag is reset whenever the identity state changes between none, anonymous and signed in. `checkout` refuses an empty cart or a missing connection; otherwise it raises `isCheckingOut` and requests a payment session. The pure list transforms behind these operations are in module `Cart`.
- **The payment confirmation page** (`SuccessPage.tsx`), as the class `SuccessPage.SessionResolver`. Its status moves from `loading` to `confirmed` or `error`, according to the `session_id` query parameter and the backend's session status. Each run of the effect has its own `cancelled` flag that discards stale answers. A completed payment clears the cart.
- **The catalog filter** (`HomePage.tsx`), **the router and filter state** (`App.tsx`), and **the header's sign-in test, abbreviated principal and cart badge** (`Header.tsx`).
- **The product dialog** (`ProductModal.tsx`), as the class `ProductModal.Modal`: the quantity picker, "Add to Cart" and "Buy Now".
- **The cart drawer** (`CartDrawer.tsx`): its labels, its steppers wired to the store, and checkout with the shop's return URLs.

The backend is not modelled. Each call the client makes to it is appended to a request log (`Backend.Request`): upload a cart snapshot, delete a cart, download a cart, create a payment session, or ask a session's status. Each asynchronous answer is a separate method that takes the outcome as a parameter:

- `CartStore.LoadSettled` for a download;
- `CartStore.CheckoutSettled` for a session request;
- `SessionResolver.LookupSettled` for a status lookup.

Toasts are recorded as a list of messages. Navigation is recorded in a `location` field.

The identity provider and the backend connection are inputs. They are the optional principal (anonymous or authenticated), whether the connection is ready (`actorReady`), and whether it is still being fetched. The origin and the `session_id` query parameter are inputs too.

Prices are whole cents (`priceCents`), not float dollars. This makes the ×100 and ÷100 conversions between cart lines and backend items exact. The twelve catalog products in `products.ts` are constants in module `Catalog`.

In three places the code behaves differently from what a shopper might expect: a saved cart loaded once per identity, a fresh download on every change of signed-in user, and a confirmation page that settles once. The model follows the code:

- **Sign-in reset.** The reset of `cartLoaded` watches the value `principal && !principal.isAnonymous()`, which has three states: no identity yet, an anonymous identity, and a signed-in one (`CartStore.AuthKey`). Any change between those states resets the flag, including the first arrival of the anonymous identity. It is keyed on the kind of identity, not on who the shopper is: a direct switch from one signed-in principal to another does not trigger a fresh download (`CartStore.SetIdentity`).
- **Repeated downloads.** The load guard only looks at `cartLoaded`, which is set when the download settles. A second trigger before then issues a second download (`CartStore.LoadEffect`).
- **Re-running confirmation page.** `confirmed` and `error` are not strictly terminal. A re-run of the confirmation effect (for example, after the connection changes) issues a new lookup, and that lookup can settle again. What is proved is that a settled status is never `Loading` again.

One place where the code departs from what it evidently intends is recorded under "## Findings": the loading code restores a downloaded line with `productId` set to the product name and a generic cart emoji, so catalog lines lose their catalog key across a reload. `CartStore.LoadSettledAsWritten`, `Cart.LoadedLines` and `Cart.LoadAfterSnapshot` state that code as written; the store's `CartStore.LoadSettled` restores catalog items under their catalog id and emoji instead (`Cart.RestoredLines`).

## Model

| member | source | states |
|---|---|---|
| `Cart.Bump` | src/frontend/src/context/CartContext.tsx:105-109 | adding to an existing line keeps the number of lines |
| `Cart.RemoveLines` | src/frontend/src/context/CartContext.tsx:137 | a line survives removal iff it was in the cart and belongs to another product; never more lines than before |
| `Cart.SetLineQuantity` | src/frontend/src/context/CartContext.tsx:152-154 | setting a quantity keeps the number of lines |
| `Cart.BumpAt` | src/frontend/src/context/CartContext.tsx:105-109 | each line of the product gains `k` units; every other line is unchanged |
| `Cart.SetLineAt` | src/frontend/src/context/CartContext.tsx:152-154 | each line of the product gets quantity `q`; every other line is unchanged |
| `Cart.AddExisting` | src/frontend/src/context/CartContext.tsx:102-109 | `Cart.AddLine` on a product already in the cart keeps the line count, raises that line's quantity by `k` and leaves other lines alone |
| `Cart.AddNew` | src/frontend/src/context/CartContext.tsx:110-121 | `Cart.AddLine` on a new product keeps the old lines as a prefix and appends one line (`Cart.NewLine`) seeded from the product's id, name, price, description and emoji with quantity `k` |
| `Cart.AddHasProduct` | src/frontend/src/context/CartContext.tsx:99-125 | after an add the cart holds a line for the product |
| `Cart.AddTwice` | src/frontend/src/context/CartContext.tsx:99-125 | adding `a` then `b` units equals adding `a + b` units at once |
| `Cart.AddTwiceExisting` | src/frontend/src/context/CartContext.tsx:105-109 | two bumps of an existing line add up to one bump by the sum |
| `Cart.AddTwiceNew` | src/frontend/src/context/CartContext.tsx:102-121 | adding to the line just appended gives the line appended with the summed quantity |
| `Cart.BumpKeepsIds` | src/frontend/src/context/CartContext.tsx:105-109 | bumping never changes any line's product id |
| `Cart.AddKeepsUnique` | src/frontend/src/context/CartContext.tsx:99-125 | adding keeps at most one line per product |
| `Cart.RemoveIsSubsequence` | src/frontend/src/context/CartContext.tsx:137 | removal keeps the remaining lines in their original order |
| `Cart.RemoveMultiplicity` | src/frontend/src/context/CartContext.tsx:137 | removal keeps every line of another product exactly as many times as it occurred, and no line of the removed product |
| `Cart.RemoveAbsent` | src/frontend/src/context/CartContext.tsx:137 | removing a product that is not in the cart changes nothing |
| `Cart.SubsequenceUnique` | src/frontend/src/context/CartContext.tsx:137 | an order-preserving selection of a one-line-per-product cart is one-line-per-product |
| `Cart.SubsequenceMember` | src/frontend/src/context/CartContext.tsx:137 | every line of an order-preserving selection is a line of the original |
| `Cart.RemoveKeepsUnique` | src/frontend/src/context/CartContext.tsx:134-143 | removing keeps at most one line per product |
| `Cart.SetQuantityKeepsUnique` | src/frontend/src/context/CartContext.tsx:145-160 | changing a quantity keeps at most one line per product |
| `Cart.SetQuantityPositive` | src/frontend/src/context/CartContext.tsx:151-157 | `Cart.SetQuantity` with a positive quantity changes only that product's line and keeps length and order |
| `Cart.SetQuantityNonPositive` | src/frontend/src/context/CartContext.tsx:147-150 | `Cart.SetQuantity` with zero or less is exactly a removal, and the product is gone afterwards |
| `Cart.AddKeepsPositive` | src/frontend/src/context/CartContext.tsx:99-125 | adding a positive quantity keeps every quantity positive |
| `Cart.RemoveKeepsPositive` | src/frontend/src/context/CartContext.tsx:134-143 | removing keeps every quantity positive |
| `Cart.SetQuantityKeepsPositive` | src/frontend/src/context/CartContext.tsx:145-160 | set-quantity keeps every quantity positive, since zero or less removes |
| `Cart.CountCoversLines` | src/frontend/src/context/CartContext.tsx:208 | with positive quantities the item count is at least the number of lines |
| `Cart.SubtotalNonNegative` | src/frontend/src/context/CartContext.tsx:209 | with positive quantities and non-negative prices the subtotal is never negative |
| `Cart.ConsTotals` | src/frontend/src/context/CartContext.tsx:208-209 | `Cart.ItemCount` and `Cart.Subtotal` of a cart are its first line's quantity and price times quantity plus the rest's totals |
| `Cart.TotalsAppend` | src/frontend/src/context/CartContext.tsx:208-209 | item count and subtotal add up over concatenated carts |
| `Cart.UniqueTail` | src/frontend/src/context/CartContext.tsx:102 | in a one-line-per-product cart the first line's product does not recur |
| `Cart.AbsentUntouched` | src/frontend/src/context/CartContext.tsx:105-109 | bumping or setting a product that has no line changes nothing |
| `Cart.BumpTotals` | src/frontend/src/context/CartContext.tsx:105-109 | adding `k` units of line `j` raises the count by `k` and the subtotal by `k` times its price |
| `Cart.SetLineTotals` | src/frontend/src/context/CartContext.tsx:152-154 | setting line `j` to `q` moves the count by the quantity difference and the subtotal by price times that difference |
| `Cart.RemoveTotals` | src/frontend/src/context/CartContext.tsx:137 | removing line `j` lowers the count by its quantity and the subtotal by its price times quantity |
| `Cart.AddTotals` | src/frontend/src/context/CartContext.tsx:99-125 | adding `k` units raises the count by `k` and the subtotal by `k` times the line's (or product's) price |
| `Cart.LoadAfterSnapshot` | src/frontend/src/context/CartContext.tsx:58-65 | restoring an uploaded cart as written gives the same lines except that the product id becomes the name and the emoji the cart emoji |
| `Cart.SnapshotAfterLoad` | src/frontend/src/context/CartContext.tsx:84-92 | uploading restored "usd" items sends exactly those items back |
| `Cart.SnapshotTotals` | src/frontend/src/context/CartContext.tsx:181-187 | the snapshot's quantities and amounts sum to the cart's item count and subtotal |
| `Cart.Snapshot` | src/frontend/src/context/CartContext.tsx:84-92 | one backend item per line, in order (`Cart.ToShoppingItem`), with the line's name, "usd", its quantity, its price in cents and its description |
| `Cart.LoadedLines` | src/frontend/src/context/CartContext.tsx:58-65 | one line per saved item, in order (`Cart.FromShoppingItem`), keyed and named by the item's name, with its cents, quantity and description and the cart emoji |
| `Cart.RestoreLine` | src/frontend/src/context/CartContext.tsx:58-65 | the corrected restore of one item keeps its name, cents, quantity and description, and falls back to the written restore for a name outside the catalog |
| `Cart.RestoredLines` | src/frontend/src/context/CartContext.tsx:58-65 | the corrected restore gives one line per saved item |
| `Cart.RestoreLineRoundTrip` | src/frontend/src/context/CartContext.tsx:58-65 | a line of a catalog product survives saving and the corrected restore unchanged |
| `Cart.RestoreRoundTrip` | src/frontend/src/context/CartContext.tsx:58-65 | saving lines of catalog products and restoring them by catalog key gives back the same lines |
| `Cart.SnapshotAfterRestore` | src/frontend/src/context/CartContext.tsx:84-92 | uploading lines from the corrected restore of "usd" items sends exactly those items back |
| `Cart.ReloadThenAddMerges` | src/frontend/src/context/CartContext.tsx:102-109 | after a save and a corrected restore, adding a product already in the cart keeps the number of lines |
| `Cart.ReloadDuplicatesLine` | src/frontend/src/context/CartContext.tsx:58-65 | as written, a saved and reloaded yoga-mat line plus another yoga mat gives two lines, and the next save and reload gives them the same key |
| `CartContext.StartCheckout` | src/frontend/src/context/CartContext.tsx:171-187 | refused as empty iff the cart is empty; refused as not ready iff non-empty with no connection; otherwise one "usd" line item per cart line with its name, quantity, cents and description, summing to the subtotal and item count |
| `CartContext.RefusalMessage` | src/frontend/src/context/CartContext.tsx:171-178 | "Your cart is empty" for an empty cart, "Please wait while loading..." for a missing connection |
| `CartContext.CartStore.Pushed` | src/frontend/src/context/CartContext.tsx:81-97 | an upload goes out iff connected and authenticated (`CartStore.CanSync`), is at most one request, and carries the owner and the full snapshot |
| `CartContext.CartStore.Deleted` | src/frontend/src/context/CartContext.tsx:164-166 | at most one delete, sent iff connected and authenticated, for the owner |
| `CartContext.CartStore.LoadRequest` | src/frontend/src/context/CartContext.tsx:53-56 | a download is requested iff connected, not fetching, authenticated and not yet loaded |
| `CartContext.CartStore.AuthKey` | src/frontend/src/context/CartContext.tsx:49 | the watched value is absent iff there is no identity, and true iff the shopper is authenticated (`CartStore.IsAuthenticated`, a principal that is not anonymous) |
| `CartContext.CartStore.constructor` | src/frontend/src/context/CartContext.tsx:41-46 | an empty closed cart, nothing loaded, no checkout in flight, nothing sent |
| `CartContext.CartStore.Persist` | src/frontend/src/context/CartContext.tsx:81-97 | appends exactly the permitted upload to the request log |
| `CartContext.CartStore.AddItem` | src/frontend/src/context/CartContext.tsx:99-132 | the cart becomes the add transform of the old cart; the new cart is pushed; a "<name> added to cart" toast is shown |
| `CartContext.CartStore.RemoveItem` | src/frontend/src/context/CartContext.tsx:134-143 | the cart becomes the old cart without the product's lines, and is pushed |
| `CartContext.CartStore.UpdateQuantity` | src/frontend/src/context/CartContext.tsx:145-160 | the cart becomes the set-quantity transform (removal for zero or less), and is pushed once |
| `CartContext.CartStore.ClearCart` | src/frontend/src/context/CartContext.tsx:162-167 | the cart is empty and at most one delete is sent, no upload |
| `CartContext.CartStore.LoadEffect` | src/frontend/src/context/CartContext.tsx:52-56 | fires iff the guard holds, and then logs exactly one download for the principal |
| `CartContext.CartStore.LoadSettled` | src/frontend/src/context/CartContext.tsx:56-71 | the cart is marked loaded on every outcome; a non-empty saved cart replaces the lines wholesale with its corrected restore, anything else leaves them |
| `CartContext.CartStore.LoadSettledAsWritten` | src/frontend/src/context/CartContext.tsx:56-71 | as `LoadSettled`, but the saved cart is restored as the code writes it, keyed by name |
| `CartContext.CartStore.SetIdentity` | src/frontend/src/context/CartContext.tsx:75-78 | the loaded flag drops iff the watched identity state (none, anonymous or signed in) changes, and is kept otherwise; in particular it drops on every sign-in and sign-out |
| `CartContext.CartStore.SetActor` | src/frontend/src/context/CartContext.tsx:46 | records the connection's readiness and fetching state |
| `CartContext.CartStore.OpenCart` | src/frontend/src/context/CartContext.tsx:222 | the drawer is open |
| `CartContext.CartStore.CloseCart` | src/frontend/src/context/CartContext.tsx:223 | the drawer is closed |
| `CartContext.CartStore.BeginCheckout` | src/frontend/src/context/CartContext.tsx:169-192 | a refused checkout only toasts its message and neither raises the flag nor sends anything; otherwise the flag is raised and one session request with the line items and both URLs is sent; the cart is never touched |
| `CartContext.CartStore.CheckoutSettled` | src/frontend/src/context/CartContext.tsx:193-203 | the flag drops on every path; navigation happens only to a non-empty URL; an empty URL or a fault toasts the matching message |
| `SuccessPage.Settle` | src/frontend/src/pages/SuccessPage.tsx:32-48 | the status is never loading after a lookup; confirmed iff the session completed; the cart is cleared iff confirmed; an error message is set iff not confirmed |
| `SuccessPage.SettleMessages` | src/frontend/src/pages/SuccessPage.tsx:35-48 | a failed session shows its error or "Payment could not be confirmed."; an unknown kind shows that default; a thrown error shows its message, anything else thrown "Failed to verify payment." |
| `SuccessPage.ErrorText` | src/frontend/src/pages/SuccessPage.tsx:148 | the error view's text is never empty: the message, or "We couldn't confirm your payment." |
| `SuccessPage.CancelAll` | src/frontend/src/pages/SuccessPage.tsx:52-54 | cleanup sets every run's cancelled flag |
| `SuccessPage.SessionResolver.constructor` | src/frontend/src/pages/SuccessPage.tsx:8-11 | starts loading with an empty message, no runs and no lookups |
| `SuccessPage.SessionResolver.Effect` | src/frontend/src/pages/SuccessPage.tsx:15-55 | earlier runs are cancelled; nothing changes while fetching or unconnected; a missing session id (`SuccessPage.HasSessionId`) gives the error "No session ID found in URL." without a lookup; otherwise a new live run issues exactly one status lookup |
| `SuccessPage.SessionResolver.Unmount` | src/frontend/src/pages/SuccessPage.tsx:52-54 | every run is cancelled |
| `SuccessPage.SessionResolver.LookupSettled` | src/frontend/src/pages/SuccessPage.tsx:28-50 | a cancelled run changes nothing and leaves the cart alone; a live run takes the settled status and message; only a completed session clears the cart |
| `HomePage.FilteredProducts` | src/frontend/src/pages/HomePage.tsx:18-29 | a product is listed (`HomePage.Listed`) iff it is in the catalog and matches both the category (`HomePage.MatchesCategory`) and the search (`HomePage.MatchesSearch`) |
| `HomePage.FilteredIsSubsequence` | src/frontend/src/pages/HomePage.tsx:19 | the listing is in catalog order |
| `HomePage.FilteredMultiplicity` | src/frontend/src/pages/HomePage.tsx:19-27 | a listed product occurs in the listing as often as in the catalog, an unlisted one not at all |
| `HomePage.NoFilterListsAll` | src/frontend/src/pages/HomePage.tsx:20-23 | category "All" with an empty search lists the whole catalog |
| `HomePage.MatchesSearchIff` | src/frontend/src/pages/HomePage.tsx:22-26 | `HomePage.MatchesSearch` holds for a non-empty query iff, lower-cased, it occurs in the lower-cased name, description or category |
| `HomePage.SearchIgnoresCase` | src/frontend/src/pages/HomePage.tsx:24-26 | a query and its lower-cased form list the same products |
| `HomePage.SameListing` | src/frontend/src/pages/HomePage.tsx:18-29 | queries that match the same products give the same listing |
| `HomePage.CountLabel` | src/frontend/src/pages/HomePage.tsx:130-131 | the label is the count and "product found" iff exactly one product is found, and the count and "products found" otherwise |
| `HomePage.SectionTitle` | src/frontend/src/pages/HomePage.tsx:127 | "All Products" iff the category is All, otherwise the category's label |
| `HomePage.SportsListing` | src/frontend/src/data/products.ts:127-150 | on the shipped catalog, Sports lists the yoga mat then the resistance bands |
| `HomePage.NoSportsBefore` | src/frontend/src/data/products.ts:30-126 | the first eight catalog products are not Sports |
| `HomePage.SportsTail` | src/frontend/src/data/products.ts:127-176 | from the ninth product on, Sports lists the yoga mat and the resistance bands |
| `HomePage.NotListedPrefix` | src/frontend/src/pages/HomePage.tsx:19-21 | a prefix with no product of the category contributes nothing to that category's listing |
| `App.GetRoute` | src/frontend/src/App.tsx:12-17 | success iff the path starts with "/success"; cancel iff it starts with "/cancel" but not "/success"; home otherwise (prefixes as `Text.StartsWith`) |
| `App.ReturnPathsRoute` | src/frontend/src/App.tsx:14-15 | any path under "/success" or "/cancel" routes to that page |
| `App.ReturnUrlsRoute` | src/frontend/src/components/shop/CartDrawer.tsx:26-28 | the return URLs keep the origin and their paths route to the success and cancel pages |
| `App.OnSearchChange` | src/frontend/src/App.tsx:30 | typing changes the query and keeps the category |
| `App.OnCategoryChange` | src/frontend/src/App.tsx:32-35 | picking a category selects it and clears the search |
| `App.CategoryChangeListsCategory` | src/frontend/src/App.tsx:32-35 | after picking a category the catalog lists exactly that category's products (everything for All) |
| `App.InitialUiListsAll` | src/frontend/src/App.tsx:20-21 | on first render, with no search and category "All", the catalog lists every product in order |
| `App.HeaderOnlyOnCatalog` | src/frontend/src/App.tsx:27 | the header (`App.ShowsHeader`) is shown iff the path starts with neither "/success" nor "/cancel" |
| `Header.ShortPrincipal` | src/frontend/src/components/shop/Header.tsx:35-38 | empty iff the principal text is empty; otherwise the first five characters, "...", and the last three, with `slice` clamping for short texts |
| `Header.Badge` | src/frontend/src/components/shop/Header.tsx:98-106 | shown iff the item count is positive; "9+" above nine; otherwise exactly the single digit character of the count, whose decimal value is the count |
| `Header.LoggedInMatchesCart` | src/frontend/src/components/shop/Header.tsx:34 | after a successful login the header's signed-in test (`Header.IsLoggedIn`) agrees with the cart store's authenticated test; without one it is never signed in |
| `Header.AnonymousShortPrincipal` | src/frontend/src/components/shop/Header.tsx:34-38 | the anonymous identity is never signed in, its text (`Header.PrincipalText`) is "2vxsx-fae", and it abbreviates to "2vxsx...fae" |
| `CartDrawer.ItemsLabel` | src/frontend/src/components/shop/CartDrawer.tsx:42-46 | shown iff the count is positive; the count and "item" iff the count is one, the count and "items" otherwise |
| `CartDrawer.EmptyViewIffEmptyCheckout` | src/frontend/src/components/shop/CartDrawer.tsx:53 | the empty view (`CartDrawer.ShowsEmptyView`) is shown iff checkout would refuse the cart as empty |
| `CartDrawer.DecrementAtOneRemoves` | src/frontend/src/components/shop/CartDrawer.tsx:98-100 | decrementing a line at one removes it: one line fewer, product gone, count down one, subtotal down its price |
| `CartDrawer.RemoveCount` | src/frontend/src/components/shop/CartDrawer.tsx:122 | trashing a line of a one-line-per-product cart removes exactly one line |
| `CartDrawer.StepKeepsLines` | src/frontend/src/components/shop/CartDrawer.tsx:98-113 | stepping up, or down above one, keeps every line and moves the count by one and the subtotal by one price |
| `CartDrawer.Decrement` | src/frontend/src/components/shop/CartDrawer.tsx:98-100 | calls set-quantity with one less |
| `CartDrawer.Increment` | src/frontend/src/components/shop/CartDrawer.tsx:111-113 | calls set-quantity with one more |
| `CartDrawer.Trash` | src/frontend/src/components/shop/CartDrawer.tsx:122 | removes the line's product |
| `CartDrawer.CheckoutClicked` | src/frontend/src/components/shop/CartDrawer.tsx:26-28 | a no-op while a checkout is in flight; otherwise checks out the current cart with origin + "/success" and origin + "/cancel": a started checkout raises the flag and sends one session request, a refused one sends nothing, keeps the flag and toasts its refusal message |
| `ProductModal.ModalTotal` | src/frontend/src/components/shop/ProductModal.tsx:138 | the dialog's total is what the chosen quantity would cost as a fresh cart, at least one price |
| `ProductModal.BuyNowStart` | src/frontend/src/components/shop/ProductModal.tsx:33-38 | the intended Buy Now checkout is never refused as empty, is refused as not ready iff unconnected, and charges the chosen quantity on top of the cart |
| `ProductModal.BuyNowStartAsWritten` | src/frontend/src/components/shop/ProductModal.tsx:33-38 | the Buy Now checkout as written is refused as empty iff the cart was empty before the click, and never charges the quantity just added |
| `ProductModal.BuyNowStaleOnEmptyCart` | src/frontend/src/components/shop/ProductModal.tsx:33-38 | on an empty cart the written Buy Now shows "Your cart is empty", while the intended one checks out one line of the product |
| `ProductModal.BuyNowStaleUndercharges` | src/frontend/src/components/shop/ProductModal.tsx:33-38 | on a non-empty cart the written Buy Now charges the chosen quantity fewer items than the cart then holds |
| `ProductModal.Modal.constructor` | src/frontend/src/components/shop/ProductModal.tsx:22 | the dialog starts closed with quantity one, so the picker's invariant `Modal.Valid` (quantity at least one) holds |
| `ProductModal.Modal.Open` | src/frontend/src/pages/HomePage.tsx:166 | selecting a card shows that product; the picked quantity is kept |
| `ProductModal.Modal.Close` | src/frontend/src/pages/HomePage.tsx:175-177 | closing shows no product |
| `ProductModal.Modal.Decrement` | src/frontend/src/components/shop/ProductModal.tsx:117 | one less above one, otherwise one; never below one |
| `ProductModal.Modal.Increment` | src/frontend/src/components/shop/ProductModal.tsx:128 | one more |
| `ProductModal.Modal.AddToCart` | src/frontend/src/components/shop/ProductModal.tsx:27-31 | does nothing for an out-of-stock product; otherwise adds the quantity once, opens the drawer and closes the dialog |
| `ProductModal.Modal.BuyNow` | src/frontend/src/components/shop/ProductModal.tsx:33-38 | does nothing out of stock; otherwise adds the quantity (pushed, with the "added to cart" toast), closes the dialog and checks out the cart after the add with the shop's return URLs: a started checkout raises the flag and sends one session request, a refused one sends nothing more, keeps the flag and toasts its refusal message |
| `ProductModal.Modal.BuyNowAsWritten` | src/frontend/src/components/shop/ProductModal.tsx:33-38 | as `BuyNow`, with the same requests, flag and toasts, but the checkout sees the cart captured before the add, so on an empty cart it toasts "Your cart is empty" and sends no session request |
| `Catalog.CategoryNameInjective` | src/frontend/src/data/products.ts:1-7 | distinct categories have distinct labels |
| `Catalog.CategoriesComplete` | src/frontend/src/data/products.ts:21-28 | the navigation (`Catalog.Categories`) starts with "All" and offers every category exactly once |
| `Catalog.ProductNamed` | src/frontend/src/data/products.ts:30-175 | a found product is in the catalog and carries the name; nothing is found only when no product carries it |
| `Catalog.CatalogNamesDistinct` | src/frontend/src/data/products.ts:30-175 | no two catalog products share a name |
| `Catalog.NamedFindsProduct` | src/frontend/src/data/products.ts:30-175 | with distinct names, looking up a product's name finds that product |
| `Text.Lower` | src/frontend/src/pages/HomePage.tsx:24-26 | lower-casing keeps the length and maps each character on its own |
| `Text.LowerChar` | src/frontend/src/pages/HomePage.tsx:24-26 | ASCII capitals become the matching small letters; every other character is kept |
| `Text.LowerIdempotent` | src/frontend/src/pages/HomePage.tsx:24-26 | lower-casing twice is lower-casing once |
| `Text.IncludesIff` | src/frontend/src/pages/HomePage.tsx:24-26 | `Text.Includes` holds iff the substring occurs at some offset |
| `Text.IncludesEmpty` | src/frontend/src/pages/HomePage.tsx:24-26 | every string includes the empty string |
| `Text.SliceIndex` | src/frontend/src/components/shop/Header.tsx:37 | `slice` index normalisation: negative counts from the end, clamped to the string |
| `Text.Slice` | src/frontend/src/components/shop/Header.tsx:37 | `slice` is the substring between the normalised indices, or empty when they cross |
| `Text.DigitChar` | src/frontend/src/components/shop/Header.tsx:106 | a digit below ten renders as a decimal digit character |
| `Text.DecimalText` | src/frontend/src/pages/HomePage.tsx:130 | a count renders as a non-empty string of decimal digits, a single digit below ten |
| `Text.DecimalRoundTrip` | src/frontend/src/components/shop/Header.tsx:106 | reading back a rendered count gives the count |
| `Text.DecimalInjective` | src/frontend/src/pages/HomePage.tsx:130 | different counts render differently |

## Left out

- Rendering: JSX, CSS, animations, icons, and the dialog, sheet and menu components. The model keeps only what decides what is shown: `App.ShowsHeader`, `CartDrawer.ShowsEmptyView`, `CartDrawer.CheckoutEnabled`, and the label and badge functions.
- Toast details: only each toast's kind and text are recorded, not descriptions, durations or the dollar amount shown with "added to cart". `console.error` is dropped.
- Float prices and `toFixed(2)`/`Math.round(price * 100)`: prices are whole cents throughout, so the conversions are exact and no rounding is modelled. The ratings and review counts of products are not modelled.
- Case folding: `toLowerCase` is modelled for ASCII letters only; other characters are left as they are.
- Asynchrony and races: each backend call is a log entry and each answer a separate method call. Overlapping uploads, their ordering, and the silent swallowing of upload and delete failures are not modelled.
- React hook machinery: dependency arrays, re-renders and memoisation are not modelled. Which `items` a checkout sees is an explicit parameter of `CartStore.BeginCheckout` instead.
- The identity provider and the connection hook: they are inputs (`principal`, `actorReady`, `isFetching`), and login, logout and the login-in-progress states are not modelled.
- The star rating, the cancel page with its timer, the footer, and the product card's "adding" timer: display only.
- The backend's admin, Stripe configuration and `transform` methods: unused by this client.
- The default `quantity = 1` of `addItem` (src/frontend/src/context/CartContext.tsx:100): Dafny has no default arguments, so a call that omits it, such as the card's quick add (src/frontend/src/pages/HomePage.tsx:32), is `CartStore.AddItem(p, 1)`.
- `CartContext.CartStore.BeginCheckout`: on a refused checkout `isCheckingOut` keeps its old value (the code never touches it there), rather than being stated as false; it is false whenever the drawer's button could be pressed.

## Findings

| source | as written | input that shows it | evidently intended | confidence | as-written member | corrected member |
|---|---|---|---|---|---|---|
| src/frontend/src/components/shop/ProductModal.tsx:33-38 | "Buy Now" calls `addItem` and then the `checkout` captured by the same render, whose `items` (src/frontend/src/context/CartContext.tsx:205) is the cart before the add | an empty cart, an in-stock product, quantity 1, connection ready: the written Buy Now shows "Your cart is empty" and creates no session; on a non-empty cart the session leaves out the product just added | checkout the cart including the product just added | high, not executed | `ProductModal.BuyNowStaleOnEmptyCart` | `ProductModal.BuyNowStart` |
| src/frontend/src/context/CartContext.tsx:58-65 | a downloaded line is keyed by the product name and gets the cart emoji, while `addItem` (line 102) finds a product's line by catalog id | save and reload a cart holding one yoga-mat line, then add the yoga mat again: the cart has two lines for it, and after the next save and reload both lines carry the key "Yoga Mat Premium", the drawer's React key (src/frontend/src/components/shop/CartDrawer.tsx:80) | a reloaded catalog line keeps its catalog id and emoji, so adding the product again raises that line | medium, not executed | `Cart.ReloadDuplicatesLine` | `Cart.RestoreRoundTrip` |

=== FILE: app.dfy ===
/**
 * The page shell: which page a path shows, and the category/search state
 * shared by the header and the catalog.
 */
module App {
  import opened Text
  import opened Catalog
  import HomePage

  datatype Route = Home | Success | Cancel

  /** `getRoute`: the first matching prefix wins, and everything else is the catalog. */
  function GetRoute(path: string): (r: Route)
    ensures r == Success <==> StartsWith(path, "/success")
    ensures r == Cancel <==> !StartsWith(path, "/success") && StartsWith(path, "/cancel")
    ensures r == Home <==> !StartsWith(path, "/success") && !StartsWith(path, "/cancel")
  {
    if StartsWith(path, "/success") then Success
    else if StartsWith(path, "/cancel") then Cancel
    else Home
  }

  /** The payment processor's return paths land on their pages, whatever follows the prefix. */
  lemma ReturnPathsRoute(rest: string)
    ensures GetRoute("/success" + rest) == Success
    ensures GetRoute("/cancel" + rest) == Cancel
  {
    assert ("/success" + rest)[..|"/success"|] == "/success";
    assert ("/cancel" + rest)[..|"/cancel"|] == "/cancel";
    assert !StartsWith("/cancel" + rest, "/success") by {
      assert ("/cancel" + rest)[1] == 'c' != "/success"[1];
    }
  }

  /** Where the payment processor sends the shopper after paying. */
  function SuccessUrl(origin: string): string {
    origin + "/success"
  }

  /** Where the payment processor sends the shopper after abandoning payment. */
  function CancelUrl(origin: string): string {
    origin + "/cancel"
  }

  /** Both return URLs stay on the shop's origin, and the path after it routes to the matching page. */
  lemma ReturnUrlsRoute(origin: string)
    ensures SuccessUrl(origin)[..|origin|] == origin && GetRoute(SuccessUrl(origin)[|origin|..]) == Success
    ensures CancelUrl(origin)[..|origin|] == origin && GetRoute(CancelUrl(origin)[|origin|..]) == Cancel
  {
    assert SuccessUrl(origin)[|origin|..] == "/success" + "";
    assert CancelUrl(origin)[|origin|..] == "/cancel" + "";
    ReturnPathsRoute("");
  }

  /** The header (search box and category navigation) is shown on the catalog only. */
  predicate ShowsHeader(r: Route) {
    r == Home
  }

  /** The header is shown exactly on paths that are neither payment return page. */
  lemma HeaderOnlyOnCatalog(path: string)
    ensures ShowsHeader(GetRoute(path)) <==> !StartsWith(path, "/success") && !StartsWith(path, "/cancel")
  {
  }

  /** The catalog page's filter state. */
  datatype UiState = UiState(searchQuery: string, selectedCategory: Category)

  /** The state the page starts in: no search, every category. */
  const InitialUi: UiState := UiState("", All)

  /** On first render the catalog lists every product, in catalog order. */
  lemma InitialUiListsAll(ps: seq<Product>)
    ensures HomePage.FilteredProducts(ps, InitialUi.selectedCategory, InitialUi.searchQuery) == ps
  {
    HomePage.NoFilterListsAll(ps);
  }

  /** Typing in the search box. */
  function OnSearchChange(ui: UiState, q: string): (u: UiState)
    ensures u.selectedCategory == ui.selectedCategory && u.searchQuery == q
  {
    ui.(searchQuery := q)
  }

  /** Picking a category also clears the search. */
  function OnCategoryChange(ui: UiState, cat: Category): (u: UiState)
    ensures u.selectedCategory == cat && u.searchQuery == ""
  {
    UiState("", cat)
  }

  /** After picking a category the catalog lists exactly that category's products (all of them for `All`). */
  lemma CategoryChangeListsCategory(ui: UiState, cat: Category, ps: seq<Product>)
    ensures var u := OnCategoryChange(ui, cat);
      forall p :: p in HomePage.FilteredProducts(ps, u.selectedCategory, u.searchQuery) <==>
        p in ps && (cat == All || p.category == cat)
  {
  }
}

=== FILE: backend.dfy ===
/**
 * The shapes exchanged with the backend canister. The backend itself is not
 * modelled: the client's calls to it are recorded as `Request` values.
 */
module Backend {
  import opened Wrappers

  /** The caller's principal: the anonymous principal or an authenticated one (by its text form). */
  datatype Principal = Anonymous | Authenticated(text: string) {
    predicate IsAnonymous() {
      Anonymous?
    }

    /** `Principal.toString()`; the anonymous principal's text form is "2vxsx-fae". */
    function ToText(): string {
      match this
      case Anonymous => "2vxsx-fae"
      case Authenticated(t) => t
    }
  }

  /** One line item as the backend stores it and as the payment session receives it. */
  datatype ShoppingItem = ShoppingItem(
    productName: string,
    currency: string,
    quantity: int,
    priceInCents: int,
    productDescription: string)

  /** A saved cart, keyed by its owner. */
  datatype ShoppingCartView = ShoppingCartView(principal: Principal, items: seq<ShoppingItem>)

  /** The payment session's resolution as the backend reports it. */
  datatype StripeSessionStatus =
    | Completed(userPrincipal: Option<string>, response: string)
    | Failed(error: string)

  /** A call the client made to the backend, in the order made. */
  datatype Request =
    | Upload(cart: ShoppingCartView)
    | Delete(owner: Principal)
    | Download(owner: Principal)
    | CreateSession(items: seq<ShoppingItem>, successUrl: string, cancelUrl: string)
    | GetSessionStatus(sessionId: string)
}

=== FILE: cart.dfy ===
/**
 * The cart's lines and the pure transforms the cart store applies to them:
 * add, remove and set-quantity, the derived item count and subtotal, and the
 * conversions to and from the backend's line items.
 */
module Cart {
  import opened Catalog
  import opened Backend
  import opened Seqs

  /** Every line item sent to the backend is priced in US dollars. */
  const Currency: string := "usd"

  /** The glyph given to lines restored from the backend, which stores none. */
  const LoadedEmoji: string := "\U{1F6D2}"

  /** One product's entry in the cart; the price is in cents. */
  datatype CartLine = CartLine(
    productId: string,
    name: string,
    priceCents: int,
    quantity: int,
    description: string,
    emoji: string)

  /** Some line carries product `id` (the `find` in `addItem`). */
  predicate HasProduct(lines: seq<CartLine>, id: string) {
    exists i :: 0 <= i < |lines| && lines[i].productId == id
  }

  /** At most one line per product. */
  predicate UniqueIds(lines: seq<CartLine>) {
    forall i, j :: 0 <= i < j < |lines| ==> lines[i].productId != lines[j].productId
  }

  /** Every line has a quantity of at least one. */
  predicate PositiveQuantities(lines: seq<CartLine>) {
    forall i :: 0 <= i < |lines| ==> lines[i].quantity > 0
  }

  // ---------------------------------------------------------------- transforms

  /** The line `addItem` appends for a product not yet in the cart. */
  function NewLine(p: Product, quantity: int): CartLine {
    CartLine(p.id, p.name, p.priceCents, quantity, p.description, p.emoji)
  }

  /** Adds `k` to the quantity of every line for product `id` (the `map` in `addItem`). */
  function Bump(lines: seq<CartLine>, id: string, k: int): (r: seq<CartLine>)
    ensures |r| == |lines|
  {
    if lines == [] then []
    else
      var head := if lines[0].productId == id then lines[0].(quantity := lines[0].quantity + k) else lines[0];
      [head] + Bump(lines[1..], id, k)
  }

  /** `addItem(product, quantity)`: raise the existing line, or append a new one. */
  function AddLine(lines: seq<CartLine>, p: Product, k: int): seq<CartLine> {
    if HasProduct(lines, p.id) then Bump(lines, p.id, k) else lines + [NewLine(p, k)]
  }

  /** The lines whose product is not `id`, in order (the `filter` in `removeItem`). */
  function RemoveLines(lines: seq<CartLine>, id: string): (r: seq<CartLine>)
    ensures |r| <= |lines|
    ensures forall l :: l in r <==> l in lines && l.productId != id
  {
    if lines == [] then []
    else if lines[0].productId == id then RemoveLines(lines[1..], id)
    else [lines[0]] + RemoveLines(lines[1..], id)
  }

  /** Removal keeps every line of another product exactly as often as it occurred, and no line of `id`. */
  lemma {:induction false} RemoveMultiplicity(lines: seq<CartLine>, id: string)
    ensures forall l :: multiset(RemoveLines(lines, id))[l] == if l.productId != id then multiset(lines)[l] else 0
  {
    if lines != [] {
      RemoveMultiplicity(lines[1..], id);
      assert lines == [lines[0]] + lines[1..];
      assert multiset(lines) == multiset{lines[0]} + multiset(lines[1..]);
      if lines[0].productId != id {
        assert multiset(RemoveLines(lines, id)) == multiset{lines[0]} + multiset(RemoveLines(lines[1..], id));
      }
    }
  }

  /** Overwrites the quantity of every line for product `id` (the `map` in `updateQuantity`). */
  function SetLineQuantity(lines: seq<CartLine>, id: string, q: int): (r: seq<CartLine>)
    ensures |r| == |lines|
  {
    if lines == [] then []
    else
      var head := if lines[0].productId == id then lines[0].(quantity := q) else lines[0];
      [head] + SetLineQuantity(lines[1..], id, q)
  }

  /** `updateQuantity(id, q)`: a quantity of zero or less removes the line. */
  function SetQuantity(lines: seq<CartLine>, id: string, q: int): seq<CartLine> {
    if q <= 0 then RemoveLines(lines, id) else SetLineQuantity(lines, id, q)
  }

  // ---------------------------------------------------------------- totals

  /** `itemCount`: the sum of the line quantities. */
  function ItemCount(lines: seq<CartLine>): int {
    if lines == [] then 0 else lines[0].quantity + ItemCount(lines[1..])
  }

  /** `subtotal`: the sum of price times quantity, in cents. */
  function Subtotal(lines: seq<CartLine>): int {
    if lines == [] then 0 else lines[0].priceCents * lines[0].quantity + Subtotal(lines[1..])
  }

  // ---------------------------------------------------------------- backend conversions

  /** How a line is sent to the backend, both for saving the cart and for a payment session. */
  function ToShoppingItem(l: CartLine): ShoppingItem {
    ShoppingItem(l.name, Currency, l.quantity, l.priceCents, l.description)
  }

  /** The whole-cart snapshot `persistCart` uploads and `checkout` sends. */
  function Snapshot(lines: seq<CartLine>): (r: seq<ShoppingItem>)
    ensures |r| == |lines|
    ensures forall i :: 0 <= i < |lines| ==>
      && r[i].productName == lines[i].name
      && r[i].currency == "usd"
      && r[i].quantity == lines[i].quantity
      && r[i].priceInCents == lines[i].priceCents
      && r[i].productDescription == lines[i].description
  {
    seq(|lines|, i requires 0 <= i < |lines| => ToShoppingItem(lines[i]))
  }

  /** How a saved item becomes a line again: it is keyed by its name, and gets the cart glyph. */
  function FromShoppingItem(item: ShoppingItem): CartLine {
    CartLine(item.productName, item.productName, item.priceInCents, item.quantity, item.productDescription, LoadedEmoji)
  }

  /** The lines a non-empty saved cart is replaced by. */
  function LoadedLines(items: seq<ShoppingItem>): (r: seq<CartLine>)
    ensures |r| == |items|
    ensures forall i :: 0 <= i < |items| ==>
      && r[i].productId == items[i].productName
      && r[i].name == items[i].productName
      && r[i].priceCents == items[i].priceInCents
      && r[i].quantity == items[i].quantity
      && r[i].description == items[i].productDescription
      && r[i].emoji == LoadedEmoji
  {
    seq(|items|, i requires 0 <= i < |items| => FromShoppingItem(items[i]))
  }

  /** The sum of quantities of a list of backend items. */
  function ItemQuantity(items: seq<ShoppingItem>): int {
    if items == [] then 0 else items[0].quantity + ItemQuantity(items[1..])
  }

  /** The amount, in cents, a list of backend items charges. */
  function ItemAmount(items: seq<ShoppingItem>): int {
    if items == [] then 0 else items[0].priceInCents * items[0].quantity + ItemAmount(items[1..])
  }

  // ================================================================ lemmas

  /** Position `i` of `Bump`: the matching lines gain `k`, the others are untouched. */
  lemma {:induction false} BumpAt(lines: seq<CartLine>, id: string, k: int, i: int)
    requires 0 <= i < |lines|
    ensures Bump(lines, id, k)[i] ==
      if lines[i].productId == id then lines[i].(quantity := lines[i].quantity + k) else lines[i]
  {
    if i > 0 {
      BumpAt(lines[1..], id, k, i - 1);
    }
  }

  /** Position `i` of `SetLineQuantity`: the matching lines get `q`, the others are untouched. */
  lemma {:induction false} SetLineAt(lines: seq<CartLine>, id: string, q: int, i: int)
    requires 0 <= i < |lines|
    ensures SetLineQuantity(lines, id, q)[i] == if lines[i].productId == id then lines[i].(quantity := q) else lines[i]
  {
    if i > 0 {
      SetLineAt(lines[1..], id, q, i - 1);
    }
  }

  /** Adding a product already in the cart keeps the line count, raises that line by `k`, and leaves every other line as it was. */
  lemma AddExisting(lines: seq<CartLine>, p: Product, k: int)
    requires HasProduct(lines, p.id)
    ensures |AddLine(lines, p, k)| == |lines|
    ensures forall i :: 0 <= i < |lines| && lines[i].productId == p.id ==>
      AddLine(lines, p, k)[i] == lines[i].(quantity := lines[i].quantity + k)
    ensures forall i :: 0 <= i < |lines| && lines[i].productId != p.id ==> AddLine(lines, p, k)[i] == lines[i]
  {
    forall i | 0 <= i < |lines| {
      BumpAt(lines, p.id, k, i);
    }
  }

  /** Adding a product not in the cart appends exactly one line, seeded from the product. */
  lemma AddNew(lines: seq<CartLine>, p: Product, k: int)
    requires !HasProduct(lines, p.id)
    ensures |AddLine(lines, p, k)| == |lines| + 1
    ensures AddLine(lines, p, k)[..|lines|] == lines
    ensures var l := AddLine(lines, p, k)[|lines|];
      l.productId == p.id && l.name == p.name && l.priceCents == p.priceCents &&
      l.quantity == k && l.description == p.description && l.emoji == p.emoji
  {
    assert (lines + [NewLine(p, k)])[..|lines|] == lines;
  }

  /** After adding, the product is in the cart. */
  lemma AddHasProduct(lines: seq<CartLine>, p: Product, k: int)
    ensures HasProduct(AddLine(lines, p, k), p.id)
  {
    if HasProduct(lines, p.id) {
      var i :| 0 <= i < |lines| && lines[i].productId == p.id;
      BumpAt(lines, p.id, k, i);
    } else {
      assert AddLine(lines, p, k)[|lines|].productId == p.id;
    }
  }

  /** Adding twice, `a` then `b`, is adding `a + b` once: one line, not two. */
  lemma AddTwice(lines: seq<CartLine>, p: Product, a: int, b: int)
    ensures AddLine(AddLine(lines, p, a), p, b) == AddLine(lines, p, a + b)
  {
    AddHasProduct(lines, p, a);
    assert AddLine(AddLine(lines, p, a), p, b) == Bump(AddLine(lines, p, a), p.id, b);
    if HasProduct(lines, p.id) {
      AddTwiceExisting(lines, p, a, b);
    } else {
      AddTwiceNew(lines, p, a, b);
    }
  }

  /** `AddTwice` when the product already has a line: both bumps land on it. */
  lemma AddTwiceExisting(lines: seq<CartLine>, p: Product, a: int, b: int)
    requires HasProduct(lines, p.id)
    ensures Bump(Bump(lines, p.id, a), p.id, b) == Bump(lines, p.id, a + b)
  {
    var once := Bump(lines, p.id, a);
    forall i | 0 <= i < |lines|
      ensures Bump(once, p.id, b)[i] == Bump(lines, p.id, a + b)[i]
    {
      BumpAt(lines, p.id, a, i);
      BumpAt(once, p.id, b, i);
      BumpAt(lines, p.id, a + b, i);
    }
  }

  /** `AddTwice` when the product is new: the second add bumps the line the first appended. */
  lemma AddTwiceNew(lines: seq<CartLine>, p: Product, a: int, b: int)
    requires !HasProduct(lines, p.id)
    ensures Bump(lines + [NewLine(p, a)], p.id, b) == lines + [NewLine(p, a + b)]
  {
    var once := lines + [NewLine(p, a)];
    forall i | 0 <= i < |once|
      ensures Bump(once, p.id, b)[i] == (lines + [NewLine(p, a + b)])[i]
    {
      BumpAt(once, p.id, b, i);
    }
  }

  /** `Bump` changes quantities only: every line keeps its product id. */
  lemma BumpKeepsIds(lines: seq<CartLine>, id: string, k: int)
    ensures forall i :: 0 <= i < |lines| ==> Bump(lines, id, k)[i].productId == lines[i].productId
  {
    forall i | 0 <= i < |lines| {
      BumpAt(lines, id, k, i);
    }
  }

  /** `addItem` keeps the cart at one line per product. */
  lemma AddKeepsUnique(lines: seq<CartLine>, p: Product, k: int)
    requires UniqueIds(lines)
    ensures UniqueIds(AddLine(lines, p, k))
  {
    if HasProduct(lines, p.id) {
      BumpKeepsIds(lines, p.id, k);
    }
  }

  /** `removeItem(id)` keeps exactly the other lines, in their original order. */
  lemma {:induction false} RemoveIsSubsequence(lines: seq<CartLine>, id: string)
    ensures IsSubsequence(RemoveLines(lines, id), lines)
  {
    if lines == [] {
    } else {
      RemoveIsSubsequence(lines[1..], id);
      SubsequenceCons(lines[0], RemoveLines(lines[1..], id), lines[1..]);
      assert [lines[0]] + lines[1..] == lines;
    }
  }

  /** `removeItem(id)` for a product not in the cart changes nothing. */
  lemma {:induction false} RemoveAbsent(lines: seq<CartLine>, id: string)
    requires !HasProduct(lines, id)
    ensures RemoveLines(lines, id) == lines
  {
    if lines != [] {
      assert !HasProduct(lines[1..], id) by {
        forall i | 0 <= i < |lines[1..]| ensures lines[1..][i].productId != id {
          assert lines[1..][i] == lines[i + 1];
        }
      }
      RemoveAbsent(lines[1..], id);
      assert [lines[0]] + lines[1..] == lines;
    }
  }

  /** A subsequence of a cart with one line per product has one line per product. */
  lemma {:induction false} SubsequenceUnique(a: seq<CartLine>, b: seq<CartLine>)
    requires IsSubsequence(a, b) && UniqueIds(b)
    ensures UniqueIds(a)
    decreases |b|
  {
    if a != [] && b != [] {
      assert UniqueIds(b[1..]) by {
        forall i, j | 0 <= i < j < |b[1..]| ensures b[1..][i].productId != b[1..][j].productId {
          assert b[1..][i] == b[i + 1] && b[1..][j] == b[j + 1];
        }
      }
      if a[0] == b[0] {
        SubsequenceUnique(a[1..], b[1..]);
        forall j | 0 < j < |a| ensures a[0].productId != a[j].productId {
          assert a[j] == a[1..][j - 1];
          SubsequenceMember(a[1..], b[1..], j - 1);
        }
      } else {
        SubsequenceUnique(a, b[1..]);
      }
    }
  }

  /** Every element of a subsequence of `b` is an element of `b`. */
  lemma {:induction false} SubsequenceMember(a: seq<CartLine>, b: seq<CartLine>, j: int)
    requires IsSubsequence(a, b) && 0 <= j < |a|
    ensures a[j] in b
    decreases |b|
  {
    if a[0] == b[0] {
      if j > 0 {
        SubsequenceMember(a[1..], b[1..], j - 1);
      }
    } else {
      SubsequenceMember(a, b[1..], j);
    }
  }

  /** `removeItem` keeps the cart at one line per product. */
  lemma RemoveKeepsUnique(lines: seq<CartLine>, id: string)
    requires UniqueIds(lines)
    ensures UniqueIds(RemoveLines(lines, id))
  {
    RemoveIsSubsequence(lines, id);
    SubsequenceUnique(RemoveLines(lines, id), lines);
  }

  /** `updateQuantity` keeps the cart at one line per product. */
  lemma SetQuantityKeepsUnique(lines: seq<CartLine>, id: string, q: int)
    requires UniqueIds(lines)
    ensures UniqueIds(SetQuantity(lines, id, q))
  {
    if q <= 0 {
      RemoveKeepsUnique(lines, id);
    } else {
      forall i | 0 <= i < |lines| {
        SetLineAt(lines, id, q, i);
      }
    }
  }

  /** `updateQuantity(id, q)` with `q > 0` keeps length and order and changes only that product's quantity. */
  lemma SetQuantityPositive(lines: seq<CartLine>, id: string, q: int)
    requires q > 0
    ensures |SetQuantity(lines, id, q)| == |lines|
    ensures forall i :: 0 <= i < |lines| && lines[i].productId == id ==> SetQuantity(lines, id, q)[i] == lines[i].(quantity := q)
    ensures forall i :: 0 <= i < |lines| && lines[i].productId != id ==> SetQuantity(lines, id, q)[i] == lines[i]
  {
    forall i | 0 <= i < |lines| {
      SetLineAt(lines, id, q, i);
    }
  }

  /** After `updateQuantity(id, q)` with `q <= 0`, no line for `id` remains. */
  lemma SetQuantityNonPositive(lines: seq<CartLine>, id: string, q: int)
    requires q <= 0
    ensures SetQuantity(lines, id, q) == RemoveLines(lines, id)
    ensures !HasProduct(SetQuantity(lines, id, q), id)
  {
    var r := RemoveLines(lines, id);
    forall i | 0 <= i < |r| ensures r[i].productId != id {
      assert r[i] in r;
    }
  }

  /** Adding a positive amount keeps every quantity positive. */
  lemma AddKeepsPositive(lines: seq<CartLine>, p: Product, k: int)
    requires PositiveQuantities(lines) && k > 0
    ensures PositiveQuantities(AddLine(lines, p, k))
  {
    var r := AddLine(lines, p, k);
    forall i | 0 <= i < |r| ensures r[i].quantity > 0 {
      if i < |lines| {
        BumpAt(lines, p.id, k, i);
      }
    }
  }

  /** Removing lines keeps every quantity positive. */
  lemma RemoveKeepsPositive(lines: seq<CartLine>, id: string)
    requires PositiveQuantities(lines)
    ensures PositiveQuantities(RemoveLines(lines, id))
  {
    var r := RemoveLines(lines, id);
    forall i | 0 <= i < |r| ensures r[i].quantity > 0 {
      assert r[i] in lines;
    }
  }

  /** Setting any quantity keeps every quantity positive, since zero or less removes the line. */
  lemma SetQuantityKeepsPositive(lines: seq<CartLine>, id: string, q: int)
    requires PositiveQuantities(lines)
    ensures PositiveQuantities(SetQuantity(lines, id, q))
  {
    if q <= 0 {
      RemoveKeepsPositive(lines, id);
    } else {
      forall i | 0 <= i < |lines| ensures SetQuantity(lines, id, q)[i].quantity > 0 {
        SetLineAt(lines, id, q, i);
      }
    }
  }

  // ---------------------------------------------------------------- totals lemmas

  /** Totals split over concatenation. */
  lemma {:induction false} TotalsAppend(a: seq<CartLine>, b: seq<CartLine>)
    ensures ItemCount(a + b) == ItemCount(a) + ItemCount(b)
    ensures Subtotal(a + b) == Subtotal(a) + Subtotal(b)
  {
    if a != [] {
      TotalsAppend(a[1..], b);
      assert (a + b)[0] == a[0];
      assert (a + b)[1..] == a[1..] + b;
    } else {
      assert a + b == b;
    }
  }

  /** The cart's tail keeps one line per product, and none of it carries the head's product. */
  lemma UniqueTail(lines: seq<CartLine>)
    requires UniqueIds(lines) && lines != []
    ensures UniqueIds(lines[1..])
    ensures !HasProduct(lines[1..], lines[0].productId)
  {
    forall i | 0 <= i < |lines[1..]| ensures lines[1..][i].productId != lines[0].productId {
      assert lines[1..][i] == lines[i + 1];
    }
  }

  /** Where the product is absent, `Bump` and `SetLineQuantity` change nothing. */
  lemma {:induction false} AbsentUntouched(lines: seq<CartLine>, id: string, k: int, q: int)
    requires !HasProduct(lines, id)
    ensures Bump(lines, id, k) == lines
    ensures SetLineQuantity(lines, id, q) == lines
  {
    if lines != [] {
      assert !HasProduct(lines[1..], id) by {
        forall i | 0 <= i < |lines[1..]| ensures lines[1..][i].productId != id {
          assert lines[1..][i] == lines[i + 1];
        }
      }
      AbsentUntouched(lines[1..], id, k, q);
      assert [lines[0]] + lines[1..] == lines;
    }
  }

  /** With every quantity positive, the cart holds at least one item per line. */
  lemma {:induction false} CountCoversLines(lines: seq<CartLine>)
    requires PositiveQuantities(lines)
    ensures ItemCount(lines) >= |lines|
  {
    if lines != [] {
      CountCoversLines(lines[1..]);
    }
  }

  /** With positive quantities and non-negative prices, the subtotal is never negative. */
  lemma {:induction false} SubtotalNonNegative(lines: seq<CartLine>)
    requires PositiveQuantities(lines)
    requires forall i :: 0 <= i < |lines| ==> lines[i].priceCents >= 0
    ensures Subtotal(lines) >= 0
  {
    if lines != [] {
      SubtotalNonNegative(lines[1..]);
    }
  }

  /** The totals of a cart split into its first line and the rest. */
  lemma ConsTotals(l: CartLine, rest: seq<CartLine>)
    ensures ItemCount([l] + rest) == l.quantity + ItemCount(rest)
    ensures Subtotal([l] + rest) == l.priceCents * l.quantity + Subtotal(rest)
  {
    assert ([l] + rest)[0] == l;
    assert ([l] + rest)[1..] == rest;
  }

  /** Changing a line's quantity from `before` to `after` moves its amount by the price times the difference. */
  lemma AmountShift(price: int, before: int, after: int)
    ensures price * after == price * before + price * (after - before)
  {
  }

  /** With one line per product, raising line `j`'s product by `k` raises the count by `k` and the subtotal by `k` times its price. */
  lemma {:induction false} BumpTotals(lines: seq<CartLine>, j: int, k: int)
    requires UniqueIds(lines) && 0 <= j < |lines|
    ensures ItemCount(Bump(lines, lines[j].productId, k)) == ItemCount(lines) + k
    ensures Subtotal(Bump(lines, lines[j].productId, k)) == Subtotal(lines) + k * lines[j].priceCents
  {
    var id := lines[j].productId;
    UniqueTail(lines);
    var tail := Bump(lines[1..], id, k);
    if j == 0 {
      var head := lines[0].(quantity := lines[0].quantity + k);
      assert Bump(lines, id, k) == [head] + tail;
      ConsTotals(head, tail);
      AbsentUntouched(lines[1..], id, k, 0);
      assert head.priceCents * head.quantity == lines[0].priceCents * lines[0].quantity + k * lines[0].priceCents by {
        AmountShift(lines[0].priceCents, lines[0].quantity, lines[0].quantity + k);
      }
    } else {
      assert lines[1..][j - 1] == lines[j];
      assert lines[0].productId != id;
      assert Bump(lines, id, k) == [lines[0]] + tail;
      ConsTotals(lines[0], tail);
      BumpTotals(lines[1..], j - 1, k);
    }
  }

  /** With one line per product, setting line `j`'s quantity to `q` changes the count by the difference. */
  lemma {:induction false} SetLineTotals(lines: seq<CartLine>, j: int, q: int)
    requires UniqueIds(lines) && 0 <= j < |lines|
    ensures ItemCount(SetLineQuantity(lines, lines[j].productId, q)) == ItemCount(lines) - lines[j].quantity + q
    ensures Subtotal(SetLineQuantity(lines, lines[j].productId, q)) ==
      Subtotal(lines) + lines[j].priceCents * (q - lines[j].quantity)
  {
    var id := lines[j].productId;
    UniqueTail(lines);
    var tail := SetLineQuantity(lines[1..], id, q);
    if j == 0 {
      var head := lines[0].(quantity := q);
      assert SetLineQuantity(lines, id, q) == [head] + tail;
      ConsTotals(head, tail);
      AbsentUntouched(lines[1..], id, 0, q);
      AmountShift(lines[0].priceCents, lines[0].quantity, q);
    } else {
      assert lines[1..][j - 1] == lines[j];
      assert lines[0].productId != id;
      assert SetLineQuantity(lines, id, q) == [lines[0]] + tail;
      ConsTotals(lines[0], tail);
      SetLineTotals(lines[1..], j - 1, q);
    }
  }

  /** With one line per product, removing line `j`'s product takes away exactly its quantity and amount. */
  lemma {:induction false} RemoveTotals(lines: seq<CartLine>, j: int)
    requires UniqueIds(lines) && 0 <= j < |lines|
    ensures ItemCount(RemoveLines(lines, lines[j].productId)) == ItemCount(lines) - lines[j].quantity
    ensures Subtotal(RemoveLines(lines, lines[j].productId)) == Subtotal(lines) - lines[j].priceCents * lines[j].quantity
  {
    var id := lines[j].productId;
    UniqueTail(lines);
    var rest := RemoveLines(lines[1..], id);
    if j == 0 {
      RemoveAbsent(lines[1..], id);
      assert RemoveLines(lines, id) == lines[1..];
    } else {
      assert lines[1..][j - 1] == lines[j];
      assert lines[0].productId != id;
      RemoveTotals(lines[1..], j - 1);
      assert RemoveLines(lines, id) == [lines[0]] + rest;
      ConsTotals(lines[0], rest);
    }
  }

  /** `addItem` on a cart with one line per product adds `k` items, priced at the line's (or the product's) price. */
  lemma AddTotals(lines: seq<CartLine>, p: Product, k: int)
    requires UniqueIds(lines)
    ensures ItemCount(AddLine(lines, p, k)) == ItemCount(lines) + k
    ensures HasProduct(lines, p.id) ==>
      exists j :: 0 <= j < |lines| && lines[j].productId == p.id &&
        Subtotal(AddLine(lines, p, k)) == Subtotal(lines) + k * lines[j].priceCents
    ensures !HasProduct(lines, p.id) ==> Subtotal(AddLine(lines, p, k)) == Subtotal(lines) + k * p.priceCents
  {
    if HasProduct(lines, p.id) {
      var j :| 0 <= j < |lines| && lines[j].productId == p.id;
      BumpTotals(lines, j, k);
      assert AddLine(lines, p, k) == Bump(lines, p.id, k);
    } else {
      var l := NewLine(p, k);
      assert [l] + [] == [l];
      ConsTotals(l, []);
      assert Subtotal([l]) == k * p.priceCents by {
        assert l.priceCents * l.quantity == p.priceCents * k;
      }
      TotalsAppend(lines, [l]);
      assert AddLine(lines, p, k) == lines + [l];
    }
  }

  // ---------------------------------------------------------------- conversion lemmas

  /** Restoring an uploaded snapshot gives back every line's name, price, quantity and description, in order; the line is now keyed by its name and carries the cart glyph. */
  lemma LoadAfterSnapshot(lines: seq<CartLine>)
    ensures |LoadedLines(Snapshot(lines))| == |lines|
    ensures forall i :: 0 <= i < |lines| ==>
      LoadedLines(Snapshot(lines))[i] == lines[i].(productId := lines[i].name, emoji := LoadedEmoji)
  {
  }

  /** Uploading restored lines sends back exactly the saved items, when those were priced in dollars. */
  lemma SnapshotAfterLoad(items: seq<ShoppingItem>)
    requires forall i :: 0 <= i < |items| ==> items[i].currency == Currency
    ensures Snapshot(LoadedLines(items)) == items
  {
  }

  /** The snapshot carries the cart's item count and charges exactly its subtotal. */
  lemma {:induction false} SnapshotTotals(lines: seq<CartLine>)
    ensures ItemQuantity(Snapshot(lines)) == ItemCount(lines)
    ensures ItemAmount(Snapshot(lines)) == Subtotal(lines)
  {
    if lines != [] {
      SnapshotTotals(lines[1..]);
      assert Snapshot(lines)[1..] == Snapshot(lines[1..]);
    }
  }

  // ---------------------------------------------------------------- restoring catalog lines

  /** A line that came from a catalog product: its key, name and glyph are that product's. */
  predicate IsCatalogLine(l: CartLine) {
    exists p :: p in Products && l.productId == p.id && l.name == p.name && l.emoji == p.emoji
  }

  /**
   * A saved item restored under its catalog product's id and glyph when its
   * name is a catalog name; otherwise as the loading code restores it.
   */
  function RestoreLine(item: ShoppingItem): (l: CartLine)
    ensures l.name == item.productName && l.priceCents == item.priceInCents
    ensures l.quantity == item.quantity && l.description == item.productDescription
    ensures ProductNamed(Products, item.productName).None? ==> l == FromShoppingItem(item)
  {
    match ProductNamed(Products, item.productName)
    case Some(p) => CartLine(p.id, item.productName, item.priceInCents, item.quantity, item.productDescription, p.emoji)
    case None => FromShoppingItem(item)
  }

  /** The lines a saved cart is restored to when catalog items keep their catalog key. */
  function RestoredLines(items: seq<ShoppingItem>): (r: seq<CartLine>)
    ensures |r| == |items|
  {
    seq(|items|, i requires 0 <= i < |items| => RestoreLine(items[i]))
  }

  /** A catalog line survives a save and a keyed restore unchanged. */
  lemma RestoreLineRoundTrip(l: CartLine)
    requires IsCatalogLine(l)
    ensures RestoreLine(ToShoppingItem(l)) == l
  {
    var p :| p in Products && l.productId == p.id && l.name == p.name && l.emoji == p.emoji;
    CatalogNamesDistinct();
    NamedFindsProduct(Products, p);
  }

  /** Saving catalog lines and restoring them by catalog key gives back the very same lines. */
  lemma RestoreRoundTrip(lines: seq<CartLine>)
    requires forall i :: 0 <= i < |lines| ==> IsCatalogLine(lines[i])
    ensures RestoredLines(Snapshot(lines)) == lines
  {
    forall i | 0 <= i < |lines|
      ensures RestoredLines(Snapshot(lines))[i] == lines[i]
    {
      RestoreLineRoundTrip(lines[i]);
    }
  }

  /** Uploading restored lines sends back exactly the saved items, when those were priced in dollars. */
  lemma SnapshotAfterRestore(items: seq<ShoppingItem>)
    requires forall i :: 0 <= i < |items| ==> items[i].currency == Currency
    ensures Snapshot(RestoredLines(items)) == items
  {
  }

  /**
   * With the keyed restore, adding a product after a reload raises its
   * restored line instead of opening a second one.
   */
  lemma ReloadThenAddMerges(lines: seq<CartLine>, p: Product, k: int)
    requires forall i :: 0 <= i < |lines| ==> IsCatalogLine(lines[i])
    requires HasProduct(lines, p.id)
    ensures |AddLine(RestoredLines(Snapshot(lines)), p, k)| == |lines|
  {
    RestoreRoundTrip(lines);
    AddExisting(lines, p, k);
  }

  /**
   * The loading code as written: after one save and reload, adding the same
   * catalog product opens a second line, and after another save and reload
   * both lines carry the same key.
   */
  lemma ReloadDuplicatesLine()
    ensures var restored := LoadedLines(Snapshot([NewLine(YogaMat, 1)]));
      var readded := AddLine(restored, YogaMat, 1);
      |readded| == 2 && !UniqueIds(LoadedLines(Snapshot(readded)))
  {
    var restored := LoadedLines(Snapshot([NewLine(YogaMat, 1)]));
    assert restored[0].productId == YogaMat.name;
    assert !HasProduct(restored, YogaMat.id) by {
      assert YogaMat.name != YogaMat.id;
    }
    AddNew(restored, YogaMat, 1);
    var readded := AddLine(restored, YogaMat, 1);
    var reloaded := LoadedLines(Snapshot(readded));
    assert reloaded[0].productId == reloaded[1].productId;
  }
}

=== FILE: cart_drawer.dfy ===
/**
 * The cart drawer: its labels and views, and the buttons that delegate to the
 * cart store (the steppers call `updateQuantity` with the quantity one lower
 * or higher; the trash button calls `removeItem`).
 */
module CartDrawer {
  import opened Wrappers
  import opened Text
  import opened Cart
  import opened CartContext
  import App
  import opened Backend

  /** The count next to the title: hidden for an empty cart, "item" only for exactly one. */
  function ItemsLabel(itemCount: int): (r: Option<string>)
    ensures r.Some? <==> itemCount > 0
    ensures r.Some? ==> (r.value == DecimalText(itemCount) + " item" <==> itemCount == 1)
    ensures r.Some? && itemCount != 1 ==> r.value == DecimalText(itemCount) + " items"
  {
    if itemCount > 0 then Some(DecimalText(itemCount) + " " + (if itemCount == 1 then "item" else "items"))
    else None
  }

  /** The empty-cart view replaces the line list exactly when there are no lines. */
  predicate ShowsEmptyView(items: seq<CartLine>) {
    |items| == 0
  }

  /** The empty view is shown exactly for the carts that checkout refuses as empty. */
  lemma EmptyViewIffEmptyCheckout(items: seq<CartLine>, actorReady: bool)
    ensures ShowsEmptyView(items) <==> StartCheckout(items, actorReady) == EmptyCart
  {
  }

  /** The checkout button is disabled while a checkout is in flight. */
  predicate CheckoutEnabled(isCheckingOut: bool) {
    !isCheckingOut
  }

  /** Decrementing a line at quantity one removes it: the line is gone and the totals drop by its one item. */
  lemma DecrementAtOneRemoves(lines: seq<CartLine>, j: int)
    requires UniqueIds(lines) && 0 <= j < |lines| && lines[j].quantity == 1
    ensures var r := SetQuantity(lines, lines[j].productId, lines[j].quantity - 1);
      && r == RemoveLines(lines, lines[j].productId)
      && !HasProduct(r, lines[j].productId)
      && |r| == |lines| - 1
      && ItemCount(r) == ItemCount(lines) - 1
      && Subtotal(r) == Subtotal(lines) - lines[j].priceCents
  {
    var id := lines[j].productId;
    SetQuantityNonPositive(lines, id, 0);
    RemoveTotals(lines, j);
    RemoveCount(lines, j);
  }

  /** With one line per product, removing line `j`'s product removes exactly one line. */
  lemma {:induction false} RemoveCount(lines: seq<CartLine>, j: int)
    requires UniqueIds(lines) && 0 <= j < |lines|
    ensures |RemoveLines(lines, lines[j].productId)| == |lines| - 1
  {
    UniqueTail(lines);
    if j == 0 {
      RemoveAbsent(lines[1..], lines[0].productId);
    } else {
      var id := lines[j].productId;
      assert lines[1..][j - 1] == lines[j];
      assert lines[0].productId != id;
      assert RemoveLines(lines, id) == [lines[0]] + RemoveLines(lines[1..], id);
      RemoveCount(lines[1..], j - 1);
    }
  }

  /** Stepping a line up or (above one) down keeps every line and moves the totals by one item. */
  lemma StepKeepsLines(lines: seq<CartLine>, j: int, delta: int)
    requires UniqueIds(lines) && 0 <= j < |lines|
    requires delta == 1 || delta == -1
    requires lines[j].quantity + delta > 0
    ensures var r := SetQuantity(lines, lines[j].productId, lines[j].quantity + delta);
      && |r| == |lines|
      && r[j].quantity == lines[j].quantity + delta
      && ItemCount(r) == ItemCount(lines) + delta
      && Subtotal(r) == Subtotal(lines) + delta * lines[j].priceCents
  {
    var id, q := lines[j].productId, lines[j].quantity + delta;
    var r := SetLineQuantity(lines, id, q);
    assert SetQuantity(lines, id, q) == r;
    SetLineAt(lines, id, q, j);
    SetLineTotals(lines, j, q);
    if delta == 1 {
      assert lines[j].priceCents * (q - lines[j].quantity) == lines[j].priceCents;
    } else {
      assert lines[j].priceCents * (q - lines[j].quantity) == -lines[j].priceCents;
    }
  }

  /** The minus button of line `l`. */
  method Decrement(cart: CartStore, l: CartLine)
    modifies cart`items, cart`requests
    ensures cart.items == SetQuantity(old(cart.items), l.productId, l.quantity - 1)
    ensures cart.requests == old(cart.requests) + cart.Pushed(cart.items)
  {
    cart.UpdateQuantity(l.productId, l.quantity - 1);
  }

  /** The plus button of line `l`. */
  method Increment(cart: CartStore, l: CartLine)
    modifies cart`items, cart`requests
    ensures cart.items == SetQuantity(old(cart.items), l.productId, l.quantity + 1)
    ensures cart.requests == old(cart.requests) + cart.Pushed(cart.items)
  {
    cart.UpdateQuantity(l.productId, l.quantity + 1);
  }

  /** The trash button of line `l`. */
  method Trash(cart: CartStore, l: CartLine)
    modifies cart`items, cart`requests
    ensures cart.items == RemoveLines(old(cart.items), l.productId)
    ensures cart.requests == old(cart.requests) + cart.Pushed(cart.items)
  {
    cart.RemoveItem(l.productId);
  }

  /** The checkout button: does nothing while disabled, else checks out the current cart with the shop's return URLs. */
  method CheckoutClicked(cart: CartStore, origin: string) returns (start: Option<CheckoutStart>)
    modifies cart`isCheckingOut, cart`requests, cart`toasts
    ensures !CheckoutEnabled(old(cart.isCheckingOut)) ==> start == None && unchanged(cart)
    ensures CheckoutEnabled(old(cart.isCheckingOut)) ==>
      && start == Some(StartCheckout(cart.items, cart.actorReady))
      && (start.value.Started? ==>
            && cart.isCheckingOut
            && cart.requests == old(cart.requests) + [CreateSession(start.value.lineItems, App.SuccessUrl(origin), App.CancelUrl(origin))])
      && (!start.value.Started? ==>
            && cart.isCheckingOut == old(cart.isCheckingOut)
            && cart.requests == old(cart.requests))
      && cart.toasts == old(cart.toasts) + (if start.value.Started? then [] else [Failure(RefusalMessage(start.value))])
  {
    if !CheckoutEnabled(cart.isCheckingOut) {
      return None;
    }
    var s := cart.BeginCheckout(cart.items, App.SuccessUrl(origin), App.CancelUrl(origin));
    start := Some(s);
  }
}

=== FILE: cart_store.dfy ===
/**
 * The cart provider: the shopper's cart lines plus the flags that drive the
 * backend mirroring. Every mutation made while signed in with a ready backend
 * connection uploads the whole updated cart; a one-shot download, guarded by
 * `cartLoaded`, restores a saved cart; `checkout` starts a payment session.
 *
 * Backend calls are appended to `requests` instead of being performed, and the
 * completion of an asynchronous call (the download, the session creation) is
 * a separate method taking the call's outcome.
 */
module CartContext {
  import opened Wrappers
  import opened Catalog
  import opened Backend
  import opened Cart

  /** A transient notification shown to the shopper. */
  datatype Toast = Success(text: string) | Failure(text: string)

  /** How the saved-cart download ended: the record (or none), or a thrown fault. */
  datatype LoadResult = Downloaded(saved: Option<ShoppingCartView>) | LoadFailed

  /** How the payment-session request ended: the processor's URL, or a thrown fault. */
  datatype SessionReply = SessionUrl(url: string) | SessionFault

  /** What `checkout` decides from the lines it sees before calling the backend. */
  datatype CheckoutStart = EmptyCart | NotReady | Started(lineItems: seq<ShoppingItem>)

  const EmptyCartMessage: string := "Your cart is empty"
  const NotReadyMessage: string := "Please wait while loading..."
  const NoUrlMessage: string := "Failed to create checkout session"
  const CheckoutFailedMessage: string := "Checkout failed. Please try again."

  /**
   * The checkout preconditions: an empty cart is refused first, then a missing
   * backend connection; otherwise every line becomes a line item, and the
   * session then charges exactly the cart's subtotal.
   */
  function StartCheckout(seen: seq<CartLine>, actorReady: bool): (c: CheckoutStart)
    ensures c == EmptyCart <==> |seen| == 0
    ensures c == NotReady <==> |seen| > 0 && !actorReady
    ensures c.Started? ==> |c.lineItems| == |seen|
    ensures c.Started? ==> forall i :: 0 <= i < |seen| ==>
      c.lineItems[i].currency == Currency && c.lineItems[i].quantity == seen[i].quantity &&
      c.lineItems[i].priceInCents == seen[i].priceCents && c.lineItems[i].productName == seen[i].name &&
      c.lineItems[i].productDescription == seen[i].description
    ensures c.Started? ==> ItemAmount(c.lineItems) == Subtotal(seen) && ItemQuantity(c.lineItems) == ItemCount(seen)
  {
    if |seen| == 0 then EmptyCart
    else if !actorReady then NotReady
    else SnapshotTotals(seen); Started(Snapshot(seen))
  }

  /** The notification for a checkout refused before any backend call. */
  function RefusalMessage(c: CheckoutStart): (m: string)
    requires !c.Started?
    ensures c == EmptyCart ==> m == EmptyCartMessage
    ensures c == NotReady ==> m == NotReadyMessage
  {
    if c == EmptyCart then EmptyCartMessage else NotReadyMessage
  }

  class CartStore {
    /** The cart, in the order lines were first added. */
    var items: seq<CartLine>
    var isCartOpen: bool
    /** Set while a payment-session request is in flight. */
    var isCheckingOut: bool
    /** Whether the saved cart has been downloaded (or the download failed) for this sign-in. */
    var cartLoaded: bool

    // Inputs from the identity and backend-connection hooks.
    var actorReady: bool
    var isFetching: bool
    var principal: Option<Principal>

    // Outputs: backend calls made, notifications shown, and where the browser was sent.
    var requests: seq<Request>
    var toasts: seq<Toast>
    var location: Option<string>

    /** Signed in with a principal other than the anonymous one. */
    predicate IsAuthenticated()
      reads this
    {
      principal.Some? && !principal.value.IsAnonymous()
    }

    /**
     * The value the reset effect watches: absent with no identity, otherwise
     * whether the principal is a signed-in one. It distinguishes "no identity"
     * from "the anonymous identity", which are both unauthenticated.
     */
    function AuthKey(): (k: Option<bool>)
      reads this
      ensures k == None <==> principal.None?
      ensures k == Some(true) <==> IsAuthenticated()
    {
      if principal.None? then None else Some(!principal.value.IsAnonymous())
    }

    /** The conditions under which the cart is mirrored to the backend. */
    predicate CanSync()
      reads this
    {
      actorReady && IsAuthenticated()
    }

    /** The upload `persistCart` issues for `updated`: the whole cart, or nothing when it may not sync. */
    function Pushed(updated: seq<CartLine>): (r: seq<Request>)
      reads this
      ensures |r| <= 1
      ensures r != [] <==> CanSync()
      ensures r != [] ==> r[0].Upload? && r[0].cart.principal == principal.value && r[0].cart.items == Snapshot(updated)
    {
      if CanSync() then [Upload(ShoppingCartView(principal.value, Snapshot(updated)))] else []
    }

    /** The delete `clearCart` issues: at most one, and only when it may sync. */
    function Deleted(): (r: seq<Request>)
      reads this
      ensures |r| <= 1
      ensures r != [] <==> CanSync()
      ensures r != [] ==> r[0] == Delete(principal.value)
    {
      if CanSync() then [Delete(principal.value)] else []
    }

    /** The download the load effect issues: only with a ready, settled connection, signed in, and not yet loaded. */
    function LoadRequest(): (r: seq<Request>)
      reads this
      ensures |r| <= 1
      ensures r != [] <==> actorReady && !isFetching && IsAuthenticated() && !cartLoaded
      ensures r != [] ==> r[0] == Download(principal.value)
    {
      if actorReady && !isFetching && IsAuthenticated() && !cartLoaded then [Download(principal.value)] else []
    }

    /** A fresh provider: empty cart, nothing loaded, nothing sent. */
    constructor (actorReady: bool, isFetching: bool, principal: Option<Principal>)
      ensures this.actorReady == actorReady && this.isFetching == isFetching && this.principal == principal
      ensures items == [] && !isCartOpen && !isCheckingOut && !cartLoaded
      ensures requests == [] && toasts == [] && location == None
    {
      items := [];
      isCartOpen := false;
      isCheckingOut := false;
      cartLoaded := false;
      this.actorReady := actorReady;
      this.isFetching := isFetching;
      this.principal := principal;
      requests := [];
      toasts := [];
      location := None;
    }

    /** `persistCart`: fire-and-forget upload of the whole updated cart. */
    method Persist(updated: seq<CartLine>)
      modifies this`requests
      ensures requests == old(requests) + Pushed(updated)
    {
      if actorReady && IsAuthenticated() {
        requests := requests + [Upload(ShoppingCartView(principal.value, Snapshot(updated)))];
      }
    }

    /** `addItem(product, quantity)`. */
    method AddItem(p: Product, quantity: int)
      modifies this`items, this`requests, this`toasts
      ensures items == AddLine(old(items), p, quantity)
      ensures requests == old(requests) + Pushed(items)
      ensures toasts == old(toasts) + [Success(p.name + " added to cart")]
    {
      var updated := AddLine(items, p, quantity);
      Persist(updated);
      items := updated;
      toasts := toasts + [Success(p.name + " added to cart")];
    }

    /** `removeItem(productId)`. */
    method RemoveItem(id: string)
      modifies this`items, this`requests
      ensures items == RemoveLines(old(items), id)
      ensures requests == old(requests) + Pushed(items)
    {
      var updated := RemoveLines(items, id);
      Persist(updated);
      items := updated;
    }

    /** `updateQuantity(productId, quantity)`: zero or less delegates to `removeItem`. */
    method UpdateQuantity(id: string, q: int)
      modifies this`items, this`requests
      ensures items == SetQuantity(old(items), id, q)
      ensures requests == old(requests) + Pushed(items)
    {
      if q <= 0 {
        RemoveItem(id);
        return;
      }
      var updated := SetLineQuantity(items, id, q);
      Persist(updated);
      items := updated;
    }

    /** `clearCart`: empties the cart and deletes the saved one; it uploads nothing. */
    method ClearCart()
      modifies this`items, this`requests
      ensures items == []
      ensures requests == old(requests) + Deleted()
    {
      items := [];
      if actorReady && IsAuthenticated() {
        requests := requests + [Delete(principal.value)];
      }
    }

    /** The load effect firing: issues the download when its guard allows. */
    method LoadEffect() returns (fired: bool)
      modifies this`requests
      ensures fired <==> actorReady && !isFetching && IsAuthenticated() && !cartLoaded
      ensures requests == old(requests) + LoadRequest()
    {
      if !actorReady || isFetching || !IsAuthenticated() || cartLoaded {
        return false;
      }
      requests := requests + [Download(principal.value)];
      fired := true;
    }

    /**
     * The download settling: a non-empty saved cart replaces the lines
     * wholesale, catalog items keeping their catalog key; either way the cart
     * counts as loaded.
     */
    method LoadSettled(result: LoadResult)
      modifies this`items, this`cartLoaded
      ensures cartLoaded
      ensures result.Downloaded? && result.saved.Some? && |result.saved.value.items| > 0 ==>
        items == RestoredLines(result.saved.value.items)
      ensures !(result.Downloaded? && result.saved.Some? && |result.saved.value.items| > 0) ==>
        items == old(items)
    {
      if result.Downloaded? && result.saved.Some? && |result.saved.value.items| > 0 {
        items := RestoredLines(result.saved.value.items);
      }
      cartLoaded := true;
    }

    /** The download settling as the loading code writes it: every restored line is keyed by its name. */
    method LoadSettledAsWritten(result: LoadResult)
      modifies this`items, this`cartLoaded
      ensures cartLoaded
      ensures result.Downloaded? && result.saved.Some? && |result.saved.value.items| > 0 ==>
        items == LoadedLines(result.saved.value.items)
      ensures !(result.Downloaded? && result.saved.Some? && |result.saved.value.items| > 0) ==>
        items == old(items)
    {
      if result.Downloaded? && result.saved.Some? && |result.saved.value.items| > 0 {
        items := LoadedLines(result.saved.value.items);
      }
      cartLoaded := true;
    }

    /**
     * A new identity from the identity provider. The reset effect clears
     * `cartLoaded` whenever the watched value changes, so in particular on
     * every sign-in and sign-out, but not on a switch between two signed-in
     * principals.
     */
    method SetIdentity(p: Option<Principal>)
      modifies this`principal, this`cartLoaded
      ensures principal == p
      ensures AuthKey() != old(AuthKey()) ==> !cartLoaded
      ensures AuthKey() == old(AuthKey()) ==> cartLoaded == old(cartLoaded)
      ensures IsAuthenticated() != old(IsAuthenticated()) ==> !cartLoaded
    {
      var watched := AuthKey();
      principal := p;
      if AuthKey() != watched {
        cartLoaded := false;
      }
    }

    /** A new state of the backend-connection hook. */
    method SetActor(ready: bool, fetching: bool)
      modifies this`actorReady, this`isFetching
      ensures actorReady == ready && isFetching == fetching
    {
      actorReady, isFetching := ready, fetching;
    }

    method OpenCart()
      modifies this`isCartOpen
      ensures isCartOpen
    {
      isCartOpen := true;
    }

    method CloseCart()
      modifies this`isCartOpen
      ensures !isCartOpen
    {
      isCartOpen := false;
    }

    /**
     * `checkout(successUrl, cancelUrl)` up to the backend call. `seen` is the
     * cart as the calling render captured it. A refused checkout only notifies;
     * otherwise the flag is raised and one session request is sent. The cart
     * itself is never touched.
     */
    method BeginCheckout(seen: seq<CartLine>, successUrl: string, cancelUrl: string) returns (start: CheckoutStart)
      modifies this`isCheckingOut, this`requests, this`toasts
      ensures start == StartCheckout(seen, actorReady)
      ensures start.Started? ==>
        && isCheckingOut
        && toasts == old(toasts)
        && requests == old(requests) + [CreateSession(start.lineItems, successUrl, cancelUrl)]
      ensures !start.Started? ==>
        && isCheckingOut == old(isCheckingOut)
        && requests == old(requests)
        && toasts == old(toasts) + [Failure(RefusalMessage(start))]
    {
      start := StartCheckout(seen, actorReady);
      if !start.Started? {
        toasts := toasts + [Failure(RefusalMessage(start))];
        return;
      }
      isCheckingOut := true;
      requests := requests + [CreateSession(start.lineItems, successUrl, cancelUrl)];
    }

    /** The session request settling: navigate only to a non-empty URL; the flag drops on every path. */
    method CheckoutSettled(reply: SessionReply)
      modifies this`isCheckingOut, this`location, this`toasts
      ensures !isCheckingOut
      ensures reply.SessionUrl? && reply.url != "" ==> location == Some(reply.url) && toasts == old(toasts)
      ensures reply.SessionUrl? && reply.url == "" ==> location == old(location) && toasts == old(toasts) + [Failure(NoUrlMessage)]
      ensures reply.SessionFault? ==> location == old(location) && toasts == old(toasts) + [Failure(CheckoutFailedMessage)]
    {
      match reply {
        case SessionUrl(url) =>
          if url != "" {
            location := Some(url);
          } else {
            toasts := toasts + [Failure(NoUrlMessage)];
          }
        case SessionFault =>
          toasts := toasts + [Failure(CheckoutFailedMessage)];
      }
      isCheckingOut := false;
    }
  }
}

=== FILE: catalog.dfy ===
/**
 * The static product catalog. Prices are whole cents rather than the
 * floating-point dollar amounts the storefront keeps, so that the
 * dollar/cent conversions on the way to and from the backend are exact.
 */
module Catalog {

  import opened Wrappers

  /** The category filter; `All` is a filter choice, never a product's category. */
  datatype Category = All | Electronics | Clothing | HomeAndGarden | Sports | Beauty

  /** A category a product can belong to. */
  type ProductCategory = c: Category | c != All witness Electronics

  /** The label the storefront shows for a category, also what the search matches against. */
  function CategoryName(c: Category): string {
    match c
    case All => "All"
    case Electronics => "Electronics"
    case Clothing => "Clothing"
    case HomeAndGarden => "Home & Garden"
    case Sports => "Sports"
    case Beauty => "Beauty"
  }

  /** Distinct categories have distinct labels, so comparing labels is comparing categories. */
  lemma CategoryNameInjective(a: Category, b: Category)
    requires CategoryName(a) == CategoryName(b)
    ensures a == b
  {
  }

  /** A catalog entry (its star rating and review count only feed the display and are left out). */
  datatype Product = Product(
    id: string,
    name: string,
    description: string,
    priceCents: nat,
    category: ProductCategory,
    emoji: string,
    inStock: bool)

  /** The category navigation, in display order. */
  const Categories: seq<Category> := [All, Electronics, Clothing, HomeAndGarden, Sports, Beauty]

  /** The navigation starts with `All` and offers every category exactly once. */
  lemma CategoriesComplete()
    ensures Categories[0] == All
    ensures forall c: Category :: c in Categories
    ensures forall i, j :: 0 <= i < j < |Categories| ==> Categories[i] != Categories[j]
  {
    forall c: Category ensures c in Categories {
      match c
      case All => assert Categories[0] == c;
      case Electronics => assert Categories[1] == c;
      case Clothing => assert Categories[2] == c;
      case HomeAndGarden => assert Categories[3] == c;
      case Sports => assert Categories[4] == c;
      case Beauty => assert Categories[5] == c;
    }
  }

  // The catalog entries, one constant each.
  const Headphones: Product :=
    Product("elec-1", "Wireless Noise-Cancelling Headphones",
      "Premium over-ear headphones with active noise cancellation and 30-hour battery life. Perfect for deep focus or long journeys.",
      8999, Electronics, "\U{1F3A7}", true)
  const SmartWatch: Product :=
    Product("elec-2", "Smart Watch Pro",
      "Track fitness, receive notifications, and pay contactlessly with this sleek smartwatch. Features GPS and heart-rate monitoring.",
      19999, Electronics, "\U{231A}", true)
  const Speaker: Product :=
    Product("elec-3", "Portable Bluetooth Speaker",
      "360\U{00B0} surround sound in a waterproof, compact design. Plays 12 hours on a single charge \U{2014} take the party anywhere.",
      4999, Electronics, "\U{1F50A}", true)
  const TShirt: Product :=
    Product("cloth-1", "Premium Cotton T-Shirt",
      "Crafted from 100% GOTS-certified organic cotton. Relaxed fit with a buttery-soft drape that only gets better with washing.",
      2499, Clothing, "\U{1F455}", true)
  const Chinos: Product :=
    Product("cloth-2", "Slim Fit Chinos",
      "Versatile stretch-cotton chinos that transition effortlessly from desk to dinner. Available in a range of tailored colors.",
      5999, Clothing, "\U{1F456}", true)
  const Hoodie: Product :=
    Product("cloth-3", "Lightweight Hoodie",
      "A midseason essential made from French terry fleece. Breathable, slightly cropped, and endlessly wearable.",
      4499, Clothing, "\U{1F9E5}", true)
  const PlantPots: Product :=
    Product("home-1", "Ceramic Plant Pot Set",
      "Set of 3 hand-glazed ceramic pots in graduated sizes. Matte finish in warm terracotta tones with drainage holes included.",
      3499, HomeAndGarden, "\U{1FAB4}", true)
  const DeskLamp: Product :=
    Product("home-2", "LED Desk Lamp",
      "Architect-style lamp with 5 color temperatures and stepless dimming. USB charging port keeps your devices topped up.",
      3999, HomeAndGarden, "\U{1F4A1}", true)
  const YogaMat: Product :=
    Product("sport-1", "Yoga Mat Premium",
      "6mm thick non-slip mat with alignment lines and a carrying strap. Made from natural tree rubber for superior grip.",
      2999, Sports, "\U{1F9D8}", true)
  const ResistanceBands: Product :=
    Product("sport-2", "Resistance Band Set",
      "Set of 5 latex-free bands in graduated resistance levels (10\U{2013}50 lb). Includes door anchor and exercise guide.",
      1999, Sports, "\U{1F4AA}", true)
  const VitaminSerum: Product :=
    Product("beauty-1", "Vitamin C Serum",
      "20% stabilised Vitamin C with hyaluronic acid and ferulic acid. Brightens, evens skin tone, and defends against free radicals.",
      2899, Beauty, "\U{2728}", true)
  const FaceMasks: Product :=
    Product("beauty-2", "Hydrating Face Mask Set",
      "Pack of 10 sheet masks infused with ceramides, niacinamide, and aloe vera. Revive dull skin in just 15 minutes.",
      2299, Beauty, "\U{1F9D6}", true)

  /** The catalog, in display order. */
  const Products: seq<Product> := [
    Headphones,
    SmartWatch,
    Speaker,
    TShirt,
    Chinos,
    Hoodie,
    PlantPots,
    DeskLamp,
    YogaMat,
    ResistanceBands,
    VitaminSerum,
    FaceMasks
  ]

  /** The first product of `ps` carrying the given name, if there is one. */
  function ProductNamed(ps: seq<Product>, name: string): (r: Option<Product>)
    ensures r.Some? ==> r.value in ps && r.value.name == name
    ensures r.None? ==> forall p :: p in ps ==> p.name != name
  {
    if ps == [] then None
    else if ps[0].name == name then Some(ps[0])
    else ProductNamed(ps[1..], name)
  }

  /** No two products of `ps` share a name. */
  predicate DistinctNames(ps: seq<Product>) {
    forall i, j :: 0 <= i < j < |ps| ==> ps[i].name != ps[j].name
  }

  /** Product names identify catalog entries. */
  lemma CatalogNamesDistinct()
    ensures DistinctNames(Products)
  {
  }

  /** When names are distinct, looking up a product's name finds that very product. */
  lemma {:induction false} NamedFindsProduct(ps: seq<Product>, p: Product)
    requires p in ps
    requires DistinctNames(ps)
    ensures ProductNamed(ps, p.name) == Some(p)
  {
    if ps[0] != p {
      var k :| 0 <= k < |ps| && ps[k] == p;
      assert ps[0].name != p.name;
      assert p in ps[1..];
      assert DistinctNames(ps[1..]) by {
        forall i, j | 0 <= i < j < |ps[1..]|
          ensures ps[1..][i].name != ps[1..][j].name
        {
          assert ps[1..][i] == ps[i + 1] && ps[1..][j] == ps[j + 1];
        }
      }
      NamedFindsProduct(ps[1..], p);
    }
  }
}

=== FILE: header.dfy ===
/**
 * The header's derived values: whether the shopper counts as signed in, the
 * abbreviated principal shown in the account menu, and the cart badge.
 */
module Header {
  import opened Wrappers
  import opened Backend
  import opened Text
  import CartContext

  /** Signed in: the login succeeded and left a non-anonymous identity. */
  predicate IsLoggedIn(isLoginSuccess: bool, identity: Option<Principal>) {
    isLoginSuccess && identity.Some? && !identity.value.IsAnonymous()
  }

  /** The principal's text, or "" when there is no identity. */
  function PrincipalText(identity: Option<Principal>): string {
    if identity.Some? then identity.value.ToText() else ""
  }

  /** `shortPrincipal`: the first five characters, "...", and the last three (JavaScript `slice` semantics). */
  function ShortPrincipal(s: string): (r: string)
    ensures s == "" <==> r == ""
    ensures |s| >= 8 ==> |r| == 11 && r == s[..5] + "..." + s[|s| - 3..]
    ensures 0 < |s| < 8 ==>
      r == s[..(if |s| < 5 then |s| else 5)] + "..." + s[(if |s| < 3 then 0 else |s| - 3)..]
  {
    if s != "" then Slice(s, 0, 5) + "..." + Slice(s, -3, |s|) else ""
  }

  /** The cart badge: hidden for an empty cart, "9+" above nine, otherwise the count. */
  function Badge(itemCount: int): (r: Option<string>)
    ensures r.Some? <==> itemCount > 0
    ensures r.Some? ==> 1 <= |r.value| <= 2
    ensures itemCount > 9 ==> r == Some("9+")
    ensures 0 < itemCount <= 9 ==> r == Some([DigitChar(itemCount)]) && DecimalValue(r.value) == itemCount
  {
    if itemCount <= 0 then None
    else if itemCount > 9 then Some("9+")
    else DecimalRoundTrip(itemCount); Some(DecimalText(itemCount))
  }

  /** The header's signed-in test agrees with the cart store's: a successful login shows the account menu exactly when the cart syncs as authenticated. */
  lemma LoggedInMatchesCart(cart: CartContext.CartStore)
    ensures IsLoggedIn(true, cart.principal) <==> cart.IsAuthenticated()
    ensures !IsLoggedIn(false, cart.principal)
  {
  }

  /** The anonymous identity is never signed in, and its principal abbreviates to "2vxsx...fae". */
  lemma AnonymousShortPrincipal(isLoginSuccess: bool)
    ensures !IsLoggedIn(isLoginSuccess, Some(Anonymous))
    ensures PrincipalText(Some(Anonymous)) == "2vxsx-fae"
    ensures ShortPrincipal(PrincipalText(Some(Anonymous))) == "2vxsx...fae"
  {
    var s := PrincipalText(Some(Anonymous));
    assert |s| == 9;
    assert s[..5] == "2vxsx" && s[|s| - 3..] == "fae";
  }
}

=== FILE: home_page.dfy ===
/**
 * The catalog view: the products shown for the selected category and search
 * query, and the "N products found" line.
 */
module HomePage {
  import opened Catalog
  import opened Text
  import opened Seqs

  /** `All` matches every product; any other category only its own products. */
  predicate MatchesCategory(p: Product, selected: Category) {
    selected == All || p.category == selected
  }

  /** An empty query matches everything; otherwise the lower-cased query must occur in the lower-cased name, description or category. */
  predicate MatchesSearch(p: Product, query: string) {
    query == "" ||
    Includes(Lower(p.name), Lower(query)) ||
    Includes(Lower(p.description), Lower(query)) ||
    Includes(Lower(CategoryName(p.category)), Lower(query))
  }

  /** A product is listed when it matches both the category and the search. */
  predicate Listed(p: Product, selected: Category, query: string) {
    MatchesCategory(p, selected) && MatchesSearch(p, query)
  }

  /** `filteredProducts`: the listed products, in catalog order. */
  function FilteredProducts(ps: seq<Product>, selected: Category, query: string): (r: seq<Product>)
    ensures |r| <= |ps|
    ensures forall p :: p in r <==> p in ps && Listed(p, selected, query)
  {
    if ps == [] then []
    else if Listed(ps[0], selected, query) then [ps[0]] + FilteredProducts(ps[1..], selected, query)
    else FilteredProducts(ps[1..], selected, query)
  }

  /** A listed product occurs as often as in the catalog, an unlisted one not at all. */
  lemma {:induction false} FilteredMultiplicity(ps: seq<Product>, selected: Category, query: string)
    ensures forall p :: multiset(FilteredProducts(ps, selected, query))[p] ==
                        if Listed(p, selected, query) then multiset(ps)[p] else 0
  {
    if ps != [] {
      FilteredMultiplicity(ps[1..], selected, query);
      assert ps == [ps[0]] + ps[1..];
      assert multiset(ps) == multiset{ps[0]} + multiset(ps[1..]);
      if Listed(ps[0], selected, query) {
        assert multiset(FilteredProducts(ps, selected, query))
          == multiset{ps[0]} + multiset(FilteredProducts(ps[1..], selected, query));
      }
    }
  }

  /** The filtered list keeps the catalog's order: it is a subsequence of the catalog. */
  lemma {:induction false} FilteredIsSubsequence(ps: seq<Product>, selected: Category, query: string)
    ensures IsSubsequence(FilteredProducts(ps, selected, query), ps)
  {
    if ps != [] {
      FilteredIsSubsequence(ps[1..], selected, query);
      SubsequenceCons(ps[0], FilteredProducts(ps[1..], selected, query), ps[1..]);
      assert [ps[0]] + ps[1..] == ps;
    }
  }

  /** With category `All` and no query, the whole catalog is listed. */
  lemma {:induction false} NoFilterListsAll(ps: seq<Product>)
    ensures FilteredProducts(ps, All, "") == ps
  {
    if ps != [] {
      NoFilterListsAll(ps[1..]);
      assert [ps[0]] + ps[1..] == ps;
    }
  }

  /** A non-empty query matches exactly when it occurs, ignoring ASCII case, at some offset of the name, the description or the category label. */
  lemma MatchesSearchIff(p: Product, query: string)
    requires query != ""
    ensures MatchesSearch(p, query) <==>
      (exists i :: OccursAt(Lower(p.name), Lower(query), i)) ||
      (exists i :: OccursAt(Lower(p.description), Lower(query), i)) ||
      (exists i :: OccursAt(Lower(CategoryName(p.category)), Lower(query), i))
  {
    IncludesIff(Lower(p.name), Lower(query));
    IncludesIff(Lower(p.description), Lower(query));
    IncludesIff(Lower(CategoryName(p.category)), Lower(query));
  }

  /** The search ignores ASCII case: a query and its lower-cased form list the same products. */
  lemma SearchIgnoresCase(ps: seq<Product>, selected: Category, query: string)
    ensures FilteredProducts(ps, selected, Lower(query)) == FilteredProducts(ps, selected, query)
  {
    LowerIdempotent(query);
    SameListing(ps, selected, Lower(query), query);
  }

  /** Two queries that list the same products one by one give the same filtered list. */
  lemma {:induction false} SameListing(ps: seq<Product>, selected: Category, q1: string, q2: string)
    requires forall p :: p in ps ==> (MatchesSearch(p, q1) <==> MatchesSearch(p, q2))
    ensures FilteredProducts(ps, selected, q1) == FilteredProducts(ps, selected, q2)
  {
    if ps != [] {
      assert ps[0] in ps;
      SameListing(ps[1..], selected, q1, q2);
    }
  }

  /** The count line under the heading: "product" only for exactly one result. */
  function CountLabel(n: nat): (s: string)
    ensures s == DecimalText(n) + " product found" <==> n == 1
    ensures n != 1 ==> s == DecimalText(n) + " products found"
  {
    DecimalText(n) + " " + (if n == 1 then "product" else "products") + " found"
  }

  /** The section heading: "All Products", or the category's label. */
  function SectionTitle(selected: Category): (s: string)
    ensures s == "All Products" <==> selected == All
    ensures selected != All ==> s == CategoryName(selected)
  {
    if selected == All then "All Products" else CategoryName(selected)
  }

  /** On the shipped catalog, the Sports category without a query lists the mat and the band set, in that order. */
  lemma SportsListing()
    ensures FilteredProducts(Products, Sports, "") == [YogaMat, ResistanceBands]
  {
    NoSportsBefore(8);
    NotListedPrefix(Products, 8, Sports);
    SportsTail();
  }

  /** The first eight catalog entries are not sports products. */
  lemma NoSportsBefore(n: nat)
    requires n <= 8
    ensures n <= |Products| && forall i :: 0 <= i < n ==> Products[i].category != Sports
  {
  }

  /** The last four catalog entries list as the two sports products. */
  lemma SportsTail()
    ensures FilteredProducts(Products[8..], Sports, "") == [YogaMat, ResistanceBands]
  {
    var l1 := [FaceMasks];
    var l2 := [VitaminSerum] + l1;
    var l3 := [ResistanceBands] + l2;
    var l4 := [YogaMat] + l3;
    assert FilteredProducts(l1, Sports, "") == [];
    assert FilteredProducts(l2, Sports, "") == [] by {
      assert l2[1..] == l1;
    }
    assert FilteredProducts(l3, Sports, "") == [ResistanceBands] by {
      assert l3[1..] == l2;
    }
    assert FilteredProducts(l4, Sports, "") == [YogaMat, ResistanceBands] by {
      assert l4[1..] == l3;
    }
    assert Products[8..] == l4;
  }

  /** No product before index `n` is in `cat`, so the listing starts at `n`. */
  lemma {:induction false} NotListedPrefix(ps: seq<Product>, n: nat, cat: Category)
    requires cat != All && n <= |ps|
    requires forall i :: 0 <= i < n ==> ps[i].category != cat
    ensures FilteredProducts(ps, cat, "") == FilteredProducts(ps[n..], cat, "")
  {
    if n > 0 {
      NotListedPrefix(ps[1..], n - 1, cat);
      assert ps[1..][n - 1..] == ps[n..];
    }
  }
}

=== FILE: product_modal.dfy ===
/**
 * The product detail dialog: a quantity picker (never below one, kept across
 * products because the dialog stays mounted), "Add to Cart" and "Buy Now".
 *
 * "Buy Now" adds the product and then calls the cart's `checkout`, but the
 * `checkout` it calls was captured by the same render as the click, so it sees
 * the cart as it was BEFORE the add. `BuyNowAsWritten` models that; `BuyNow`
 * models the evidently intended behaviour, checking out the cart after the add.
 */
module ProductModal {
  import opened Wrappers
  import opened Catalog
  import opened Backend
  import opened Cart
  import opened CartContext
  import App

  /** The "Total" shown beside the picker, in cents. */
  function ModalTotal(p: Product, quantity: int): (cents: int)
    ensures quantity >= 1 ==> cents >= p.priceCents
    ensures cents == Subtotal(AddLine([], p, quantity))
  {
    assert AddLine([], p, quantity) == [NewLine(p, quantity)];
    p.priceCents * quantity
  }

  /**
   * The checkout that "Buy Now" is meant to start: the cart after the add. It
   * can never be refused as empty, and the session charges the chosen quantity
   * on top of what was already in the cart.
   */
  function BuyNowStart(cartItems: seq<CartLine>, p: Product, quantity: int, actorReady: bool): (c: CheckoutStart)
    ensures c != EmptyCart
    ensures c == NotReady <==> !actorReady
    ensures UniqueIds(cartItems) && c.Started? ==> ItemQuantity(c.lineItems) == ItemCount(cartItems) + quantity
  {
    AddHasProduct(cartItems, p, quantity);
    var after := AddLine(cartItems, p, quantity);
    if UniqueIds(cartItems) then
      AddTotals(cartItems, p, quantity);
      StartCheckout(after, actorReady)
    else
      StartCheckout(after, actorReady)
  }

  /**
   * The checkout "Buy Now" actually starts: the cart captured before the add.
   * It is refused as empty exactly when the cart was empty before the click,
   * and the session never includes the quantity just added.
   */
  function BuyNowStartAsWritten(cartItems: seq<CartLine>, p: Product, quantity: int, actorReady: bool): (c: CheckoutStart)
    ensures c == EmptyCart <==> |cartItems| == 0
    ensures c.Started? ==> ItemQuantity(c.lineItems) == ItemCount(cartItems)
  {
    StartCheckout(cartItems, actorReady)
  }

  /** On an empty cart the written "Buy Now" refuses with "Your cart is empty", while the intended one checks out the product. */
  lemma BuyNowStaleOnEmptyCart(p: Product, quantity: int)
    ensures BuyNowStartAsWritten([], p, quantity, true) == EmptyCart
    ensures RefusalMessage(BuyNowStartAsWritten([], p, quantity, true)) == EmptyCartMessage
    ensures var c := BuyNowStart([], p, quantity, true);
      c.Started? && |c.lineItems| == 1 && c.lineItems[0].productName == p.name && ItemQuantity(c.lineItems) == quantity
  {
    var c := BuyNowStart([], p, quantity, true);
    assert AddLine([], p, quantity) == [NewLine(p, quantity)];
    assert UniqueIds([]);
  }

  /** On a non-empty cart the written "Buy Now" charges `quantity` fewer items than the cart then holds. */
  lemma BuyNowStaleUndercharges(cartItems: seq<CartLine>, p: Product, quantity: int)
    requires UniqueIds(cartItems) && |cartItems| > 0
    ensures var c := BuyNowStartAsWritten(cartItems, p, quantity, true);
      c.Started? && ItemQuantity(c.lineItems) == ItemCount(AddLine(cartItems, p, quantity)) - quantity
  {
    AddTotals(cartItems, p, quantity);
  }

  class Modal {
    /** The product the dialog shows; `None` while closed. */
    var product: Option<Product>
    /** The picked quantity. */
    var quantity: int

    /** The picker never shows less than one. */
    ghost predicate Valid()
      reads this
    {
      quantity >= 1
    }

    constructor ()
      ensures product == None && quantity == 1 && Valid()
    {
      product := None;
      quantity := 1;
    }

    /** Selecting a product card opens the dialog on it; the picked quantity is kept. */
    method Open(p: Product)
      modifies this`product
      ensures product == Some(p)
    {
      product := Some(p);
    }

    /** Closing the dialog. */
    method Close()
      modifies this`product
      ensures product == None
    {
      product := None;
    }

    /** The minus button: one less, but never below one. */
    method Decrement()
      modifies this`quantity
      ensures Valid()
      ensures old(quantity) > 1 ==> quantity == old(quantity) - 1
      ensures old(quantity) <= 1 ==> quantity == 1
    {
      quantity := if quantity - 1 > 1 then quantity - 1 else 1;
    }

    /** The plus button: one more. */
    method Increment()
      requires Valid()
      modifies this`quantity
      ensures Valid() && quantity == old(quantity) + 1
    {
      quantity := quantity + 1;
    }

    /** "Add to Cart": disabled when out of stock; otherwise adds, opens the drawer and closes the dialog. */
    method AddToCart(cart: CartStore)
      requires product.Some?
      modifies this`product, cart`items, cart`requests, cart`toasts, cart`isCartOpen
      ensures !old(product.value.inStock) ==> product == old(product) && unchanged(cart)
      ensures old(product.value.inStock) ==>
        && product == None
        && cart.items == AddLine(old(cart.items), old(product.value), quantity)
        && cart.isCartOpen
        && cart.requests == old(cart.requests) + cart.Pushed(cart.items)
        && cart.toasts == old(cart.toasts) + [Success(old(product.value.name) + " added to cart")]
    {
      var p := product.value;
      if !p.inStock {
        return;
      }
      cart.AddItem(p, quantity);
      cart.OpenCart();
      product := None;
    }

    /** "Buy Now" as intended: adds, closes the dialog and checks out the cart as it is after the add. */
    method BuyNow(cart: CartStore, origin: string) returns (start: Option<CheckoutStart>)
      requires product.Some?
      modifies this`product, cart`items, cart`requests, cart`toasts, cart`isCheckingOut
      ensures !old(product.value.inStock) ==> start == None && product == old(product) && unchanged(cart)
      ensures old(product.value.inStock) ==>
        && product == None
        && cart.items == AddLine(old(cart.items), old(product.value), quantity)
        && start == Some(BuyNowStart(old(cart.items), old(product.value), quantity, cart.actorReady))
        && (start.value.Started? ==>
              && cart.isCheckingOut
              && cart.requests == old(cart.requests) + cart.Pushed(cart.items)
                + [CreateSession(start.value.lineItems, App.SuccessUrl(origin), App.CancelUrl(origin))])
        && (!start.value.Started? ==>
              && cart.isCheckingOut == old(cart.isCheckingOut)
              && cart.requests == old(cart.requests) + cart.Pushed(cart.items))
        && cart.toasts == old(cart.toasts) + [Success(old(product.value).name + " added to cart")]
             + (if start.value.Started? then [] else [Failure(RefusalMessage(start.value))])
    {
      var p := product.value;
      if !p.inStock {
        return None;
      }
      cart.AddItem(p, quantity);
      product := None;
      var s := cart.BeginCheckout(cart.items, App.SuccessUrl(origin), App.CancelUrl(origin));
      start := Some(s);
    }

    /** "Buy Now" as written: the checkout sees the cart captured before the add. */
    method BuyNowAsWritten(cart: CartStore, origin: string) returns (start: Option<CheckoutStart>)
      requires product.Some?
      modifies this`product, cart`items, cart`requests, cart`toasts, cart`isCheckingOut
      ensures !old(product.value.inStock) ==> start == None && product == old(product) && unchanged(cart)
      ensures old(product.value.inStock) ==>
        && product == None
        && cart.items == AddLine(old(cart.items), old(product.value), quantity)
        && start == Some(BuyNowStartAsWritten(old(cart.items), old(product.value), quantity, cart.actorReady))
        && (start.value.Started? ==>
              && cart.isCheckingOut
              && cart.requests == old(cart.requests) + cart.Pushed(cart.items)
                + [CreateSession(start.value.lineItems, App.SuccessUrl(origin), App.CancelUrl(origin))])
        && (!start.value.Started? ==>
              && cart.isCheckingOut == old(cart.isCheckingOut)
              && cart.requests == old(cart.requests) + cart.Pushed(cart.items))
        && cart.toasts == old(cart.toasts) + [Success(old(product.value).name + " added to cart")]
             + (if start.value.Started? then [] else [Failure(RefusalMessage(start.value))])
    {
      var p := product.value;
      if !p.inStock {
        return None;
      }
      var seen := cart.items;
      cart.AddItem(p, quantity);
      product := None;
      var s := cart.BeginCheckout(seen, App.SuccessUrl(origin), App.CancelUrl(origin));
      start := Some(s);
    }
  }
}

=== FILE: seqs.dfy ===
/** Order-preserving selection, the shape of JavaScript's `Array.prototype.filter`. */
module Seqs {

  /** `a` is obtained from `b` by deleting some elements and keeping the rest in order. */
  predicate IsSubsequence<T(==)>(a: seq<T>, b: seq<T>)
    decreases |b|
  {
    if a == [] then true
    else if b == [] then false
    else if a[0] == b[0] then IsSubsequence(a[1..], b[1..])
    else IsSubsequence(a, b[1..])
  }

  /** A subsequence of the tail of `b` is a subsequence of `b`. */
  lemma {:induction false} SubsequenceWeaken<T>(a: seq<T>, b: seq<T>)
    requires b != [] && IsSubsequence(a, b[1..])
    ensures IsSubsequence(a, b)
    decreases |b|, 0
  {
    if a != [] && a[0] == b[0] {
      SubsequenceTail(a, b[1..]);
    }
  }

  /** Dropping the first element of a subsequence leaves a subsequence. */
  lemma {:induction false} SubsequenceTail<T>(a: seq<T>, b: seq<T>)
    requires a != [] && IsSubsequence(a, b)
    ensures IsSubsequence(a[1..], b)
    decreases |b|, 1
  {
    if a[0] != b[0] {
      SubsequenceTail(a, b[1..]);
    }
    SubsequenceWeaken(a[1..], b);
  }

  /** Prepending the same element to both sides keeps the relation. */
  lemma SubsequenceCons<T>(x: T, a: seq<T>, b: seq<T>)
    requires IsSubsequence(a, b)
    ensures IsSubsequence(a, [x] + b)
    ensures IsSubsequence([x] + a, [x] + b)
  {
    assert ([x] + b)[1..] == b;
    assert ([x] + a)[1..] == a;
    SubsequenceWeaken(a, [x] + b);
  }
}

=== FILE: success_page.dfy ===
/**
 * The post-checkout confirmation page. It starts in `Loading`; once the
 * backend connection is ready it reads the `session_id` from the return URL,
 * looks the payment session up once, and settles in `Confirmed` (clearing the
 * cart) or `Error` with a message. Each run of the page's effect owns a
 * `cancelled` flag that its cleanup raises; a lookup that settles after its
 * run was cleaned up changes nothing.
 */
module SuccessPage {
  import opened Wrappers
  import opened Backend
  import opened CartContext

  datatype Status = Loading | Confirmed | Error

  /** A thrown value: an `Error` object carrying its message, or anything else. */
  datatype Fault = ErrorObject(message: string) | OtherThrown

  /** How the session-status lookup ended: a result, a result of unknown kind, or a throw. */
  datatype Lookup = Resolved(result: StripeSessionStatus) | UnknownKind | Threw(fault: Fault)

  const NoSessionMessage: string := "No session ID found in URL."
  const NotConfirmedMessage: string := "Payment could not be confirmed."
  const VerifyFailedMessage: string := "Failed to verify payment."
  const ErrorViewFallback: string := "We couldn't confirm your payment."

  /** What a settled lookup does: the new status, the new error message (none: kept), and whether the cart is cleared. */
  datatype Verdict = Verdict(status: Status, message: Option<string>, clearsCart: bool)

  /** The session id the effect acts on: `!sessionId` rejects both an absent and an empty parameter. */
  predicate HasSessionId(sessionId: Option<string>) {
    sessionId.Some? && sessionId.value != ""
  }

  /**
   * The outcome of a lookup that was not cancelled: only a completed session
   * confirms, and only confirming clears the cart; every other outcome is an
   * error with a message.
   */
  function Settle(outcome: Lookup): (v: Verdict)
    ensures v.status != Loading
    ensures v.status == Confirmed <==> outcome.Resolved? && outcome.result.Completed?
    ensures v.clearsCart <==> v.status == Confirmed
    ensures v.message.None? <==> v.status == Confirmed
  {
    match outcome
    case Resolved(Completed(_, _)) => Verdict(Confirmed, None, true)
    case Resolved(Failed(error)) =>
      Verdict(Error, Some(if error != "" then error else NotConfirmedMessage), false)
    case UnknownKind => Verdict(Error, Some(NotConfirmedMessage), false)
    case Threw(fault) =>
      Verdict(Error, Some(if fault.ErrorObject? then fault.message else VerifyFailedMessage), false)
  }

  /** The messages of the error outcomes: the backend's own text unless empty, the default for an unknown kind, the fault's message for a thrown `Error`. */
  lemma SettleMessages(outcome: Lookup)
    ensures outcome.Resolved? && outcome.result.Failed? && outcome.result.error != "" ==>
      Settle(outcome).message == Some(outcome.result.error)
    ensures outcome.Resolved? && outcome.result.Failed? && outcome.result.error == "" ==>
      Settle(outcome).message == Some(NotConfirmedMessage)
    ensures outcome.UnknownKind? ==> Settle(outcome).message == Some(NotConfirmedMessage)
    ensures outcome.Threw? && outcome.fault.ErrorObject? ==> Settle(outcome).message == Some(outcome.fault.message)
    ensures outcome.Threw? && outcome.fault.OtherThrown? ==> Settle(outcome).message == Some(VerifyFailedMessage)
  {
  }

  /** The text the error view shows: the error message, or a fallback when it is empty, so never blank. */
  function ErrorText(errorMessage: string): (t: string)
    ensures t != ""
    ensures errorMessage != "" ==> t == errorMessage
    ensures errorMessage == "" ==> t == ErrorViewFallback
  {
    if errorMessage != "" then errorMessage else ErrorViewFallback
  }

  /** Every flag raised: the cleanup of the latest run (earlier runs were cleaned up before it started). */
  function CancelAll(flags: seq<bool>): (r: seq<bool>)
    ensures |r| == |flags|
    ensures forall i :: 0 <= i < |r| ==> r[i]
  {
    seq(|flags|, i => true)
  }

  class SessionResolver {
    var status: Status
    var errorMessage: string
    /** The `cancelled` flag of each effect run that started a lookup, oldest first. */
    var cancelled: seq<bool>
    /** The lookups issued, as backend requests. */
    var requests: seq<Request>

    constructor ()
      ensures status == Loading && errorMessage == "" && cancelled == [] && requests == []
    {
      status := Loading;
      errorMessage := "";
      cancelled := [];
      requests := [];
    }

    /**
     * One run of the page's effect, after the previous run's cleanup. It waits
     * for the connection; with no session id it fails at once; otherwise it
     * starts one lookup, owned by a new, un-cancelled run.
     */
    method Effect(actorReady: bool, isFetching: bool, sessionId: Option<string>) returns (started: bool)
      modifies this`status, this`errorMessage, this`cancelled, this`requests
      ensures started <==> actorReady && !isFetching && HasSessionId(sessionId)
      ensures |cancelled| == |old(cancelled)| + (if started then 1 else 0)
      ensures forall i :: 0 <= i < |old(cancelled)| ==> cancelled[i]
      ensures started ==> !cancelled[|cancelled| - 1]
      ensures started ==> requests == old(requests) + [GetSessionStatus(sessionId.value)]
      ensures !started ==> requests == old(requests)
      ensures !actorReady || isFetching || started ==> status == old(status) && errorMessage == old(errorMessage)
      ensures actorReady && !isFetching && !HasSessionId(sessionId) ==>
        status == Error && errorMessage == NoSessionMessage
    {
      cancelled := CancelAll(cancelled);
      if isFetching || !actorReady {
        return false;
      }
      if !HasSessionId(sessionId) {
        status := Error;
        errorMessage := NoSessionMessage;
        return false;
      }
      cancelled := cancelled + [false];
      requests := requests + [GetSessionStatus(sessionId.value)];
      started := true;
    }

    /** The page unmounting: the latest run's cleanup. */
    method Unmount()
      modifies this`cancelled
      ensures |cancelled| == |old(cancelled)|
      ensures forall i :: 0 <= i < |cancelled| ==> cancelled[i]
    {
      cancelled := CancelAll(cancelled);
    }

    /** The lookup started by run `run` settling; a cancelled run's result is discarded. */
    method LookupSettled(run: nat, outcome: Lookup, cart: CartStore)
      requires run < |cancelled|
      modifies this`status, this`errorMessage, cart`items, cart`requests
      ensures cancelled[run] ==> status == old(status) && errorMessage == old(errorMessage) && unchanged(cart)
      ensures !cancelled[run] ==> status == Settle(outcome).status
      ensures !cancelled[run] && Settle(outcome).message.Some? ==> errorMessage == Settle(outcome).message.value
      ensures !cancelled[run] && Settle(outcome).message.None? ==> errorMessage == old(errorMessage)
      ensures !cancelled[run] && Settle(outcome).clearsCart ==>
        cart.items == [] && cart.requests == old(cart.requests) + old(cart.Deleted())
      ensures !(!cancelled[run] && Settle(outcome).clearsCart) ==> unchanged(cart)
      ensures old(status) != Loading ==> status != Loading
    {
      if cancelled[run] {
        return;
      }
      var v := Settle(outcome);
      status := v.status;
      if v.message.Some? {
        errorMessage := v.message.value;
      }
      if v.clearsCart {
        cart.ClearCart();
      }
    }
  }
}

=== FILE: text.dfy ===
/**
 * The JavaScript string operations the storefront relies on: `toLowerCase`,
 * `includes`, `startsWith`, `slice` with negative indices, and the decimal
 * rendering of a count.
 */
module Text {

  /** `String.prototype.toLowerCase` on one character (ASCII letters only). */
  function LowerChar(c: char): (d: char)
    ensures 'A' <= c <= 'Z' ==> 'a' <= d <= 'z' && d as int - c as int == 32
    ensures !('A' <= c <= 'Z') ==> d == c
  {
    if 'A' <= c <= 'Z' then (c as int + 32) as char else c
  }

  /** `String.prototype.toLowerCase`. */
  function Lower(s: string): (r: string)
    ensures |r| == |s|
    ensures forall i :: 0 <= i < |s| ==> r[i] == LowerChar(s[i])
  {
    seq(|s|, i requires 0 <= i < |s| => LowerChar(s[i]))
  }

  /** Lower-casing twice is lower-casing once. */
  lemma LowerIdempotent(s: string)
    ensures Lower(Lower(s)) == Lower(s)
  {
  }

  /** `s.startsWith(p)`. */
  predicate StartsWith(s: string, p: string) {
    |p| <= |s| && s[..|p|] == p
  }

  /** `s.includes(sub)`: a left-to-right scan for an occurrence of `sub`. */
  predicate Includes(s: string, sub: string)
    decreases |s|
  {
    StartsWith(s, sub) || (|s| > 0 && Includes(s[1..], sub))
  }

  /** `sub` occurs in `s` starting at offset `i`. */
  predicate OccursAt(s: string, sub: string, i: int) {
    0 <= i <= |s| - |sub| && s[i..i + |sub|] == sub
  }

  /** The scan finds an occurrence exactly when `sub` occurs at some offset of `s`. */
  lemma {:induction false} IncludesIff(s: string, sub: string)
    ensures Includes(s, sub) <==> exists i :: OccursAt(s, sub, i)
    decreases |s|
  {
    if StartsWith(s, sub) {
      assert OccursAt(s, sub, 0);
    } else if |s| == 0 {
    } else {
      IncludesIff(s[1..], sub);
      if exists i :: OccursAt(s, sub, i) {
        var i :| OccursAt(s, sub, i);
        assert i != 0;
        assert s[1..][i - 1..i - 1 + |sub|] == s[i..i + |sub|];
        assert OccursAt(s[1..], sub, i - 1);
      }
      if exists j :: OccursAt(s[1..], sub, j) {
        var j :| OccursAt(s[1..], sub, j);
        assert s[j + 1..j + 1 + |sub|] == s[1..][j..j + |sub|];
        assert OccursAt(s, sub, j + 1);
      }
    }
  }

  /** The empty string is included in every string. */
  lemma IncludesEmpty(s: string)
    ensures Includes(s, "")
  {
    assert s[..0] == "";
  }

  /** Where `slice` starts or stops for a possibly negative index `k` into a string of length `n`. */
  function SliceIndex(k: int, n: nat): (r: nat)
    ensures r <= n
    ensures 0 <= k <= n ==> r == k
    ensures k < 0 && n + k >= 0 ==> r == n + k
    ensures n + k < 0 ==> r == 0
    ensures k > n ==> r == n
  {
    if k < 0 then (if n + k < 0 then 0 else n + k)
    else if k < n then k else n
  }

  /** `s.slice(start, end)`; an end before the start gives the empty string. */
  function Slice(s: string, start: int, end: int): (r: string)
    ensures |r| <= |s|
    ensures SliceIndex(start, |s|) <= SliceIndex(end, |s|) ==> r == s[SliceIndex(start, |s|)..SliceIndex(end, |s|)]
    ensures SliceIndex(end, |s|) < SliceIndex(start, |s|) ==> r == ""
  {
    var from, to := SliceIndex(start, |s|), SliceIndex(end, |s|);
    if from <= to then s[from..to] else ""
  }

  /** The character for one decimal digit. */
  function DigitChar(d: nat): (c: char)
    requires d < 10
    ensures '0' <= c <= '9'
  {
    ('0' as int + d) as char
  }

  /** How a non-negative JavaScript number is rendered as text. */
  function DecimalText(n: nat): (r: string)
    ensures |r| >= 1
    ensures forall i :: 0 <= i < |r| ==> '0' <= r[i] <= '9'
    ensures n < 10 ==> r == [DigitChar(n)]
    decreases n
  {
    if n < 10 then [DigitChar(n)] else DecimalText(n / 10) + [DigitChar(n % 10)]
  }

  /** Reads a string of decimal digits back into a number (the reference for `DecimalText`). */
  function DecimalValue(s: string): (v: int)
    decreases |s|
  {
    if s == [] then 0
    else DecimalValue(s[..|s| - 1]) * 10 + (s[|s| - 1] as int - '0' as int)
  }

  /** Rendering then reading a count gives the count back, so distinct counts render distinctly. */
  lemma {:induction false} DecimalRoundTrip(n: nat)
    ensures DecimalValue(DecimalText(n)) == n
    decreases n
  {
    if n >= 10 {
      DecimalRoundTrip(n / 10);
      var r := DecimalText(n / 10) + [DigitChar(n % 10)];
      assert r[..|r| - 1] == DecimalText(n / 10);
    }
  }

  /** Distinct counts render as distinct text. */
  lemma DecimalInjective(m: nat, n: nat)
    requires DecimalText(m) == DecimalText(n)
    ensures m == n
  {
    DecimalRoundTrip(m);
    DecimalRoundTrip(n);
  }
}

=== FILE: wrappers.dfy ===
/** The optional value used wherever the source has `T | null` or `T | undefined`. */
module Wrappers {
  datatype Option<+T> = None | Some(value: T)
}
